=== FILE: README.md ===
# NestJS e-commerce backend: the four services in Dafny

This project models the business logic of a NestJS/TypeORM shop backend, which
lives in four services:

- **UsersService.** It holds the authorization rules on user records:
  - role assignment at account creation;
  - CUSTOMER self-access on read, update and delete;
  - protection of SUPER_ADMIN accounts on delete;
  - the role-gated probe routes;
  - the role-dependent profile.

  It also owns the user table, with create, list, read, update, remove and password reset.
  `updateUser` checks who may change a role but never writes the role, so a role change it allows is dropped.
- **CategoriesService** and **ProductsService.** These keep tables whose names are unique.
  - `create` and `update` answer Conflict for a taken name and NotFound for a missing row.
  - A product update is a partial update: it changes only the fields it is given.
  - A product may link to a category, and `categoryId: null` is meant to detach it. As written, the detach never reaches the table (see Findings).
  - No row is saved unless every check has passed.
- **ProductImagesService.** It keeps the uploaded pictures of products.
  - Each product should have at most one primary image, as the comment on `update` says (src/product_images/product_images.service.ts:103-105).
  - `create` builds one image per uploaded file in a loop. Only the first image may be primary. When `isPrimary` is set, the product's stored images lose the flag first.
  - `update` is `Object.assign` onto the stored image. With `isPrimary: true` it first clears the flag on the image's siblings. A move to a product that is not stored then fails on the foreign key, after that clear is written.
  - Images can be removed one at a time, or all at once for a product.

Each service is a `class` whose repository is a field. The field is a sequence of rows in insertion order, which is also the order of the generated ids and of `createdAt`.

- Lookups are functions that read the object.
- Operations that change the table are methods.
  - Each method's postcondition gives the whole new table.
  - Each method's postcondition gives every error case, with its precedence.
  - Each method's postcondition states the invariant it keeps:
    - generated ids increase along the table (`Repository.Keyed`);
    - product and category names stay distinct;
    - no product has two primary images.
- NestJS exceptions become `Common.Error`: `NotFound`, `Conflict`, `Forbidden(reason)`, or `Internal` for a plain JavaScript `Error`/`TypeError`.
- The user rules are pure functions that return `Allow | Deny(reason)`.

`AccessPolicy.Decide` is a centralized authorization policy over (principal, operation), stated independently of the service code. The lemmas beside it prove that each rule the service applies agrees with that policy. The one exception is an update with no caller: the service refuses only a role change, while the policy refuses the whole update.

`Text` models two JavaScript operations:

- `String.prototype.trim`, applied to names and e-mails;
- the decimal rendering of a number in a template literal, used in default alt texts and messages.

`Repository` models the ORM's reads: `findOne` (`FindIndex`, `Find`), `find` (`Filter`), and `skip`/`take`/`order` paging (`Window`, `NewestFirst`). It also holds the invariants and lemmas the writes rely on. The writes are in the service methods:

- `save` of a new row is an append;
- `save` of a changed row replaces it in the sequence;
- `remove` is a `Filter`;
- the bulk `update` of the primary flag is `ProductImages.ClearPrimary`.

## Model

| member | source | states |
|---|---|---|
| Users.EnsureHasOneOfRole | src/users/users.service.ts:25-33 | Allows exactly a present actor whose role is in the allowed set. An absent actor is denied as unauthenticated; a wrong role is denied as insufficient. |
| Users.AssignRole | src/users/users.service.ts:50-58 | No role or CUSTOMER gives CUSTOMER whoever creates. An elevated role is honoured exactly when an ADMIN or SUPER_ADMIN creator is given, otherwise it is refused (ElevationDenied). |
| Users.ReadOneDecision | src/users/users.service.ts:97-99 | Allowed iff the caller is not a CUSTOMER or reads their own id; otherwise SelfAccessOnly. |
| Users.ChangesRole | src/users/users.service.ts:125 | The body changes the role only when it names a role that differs from the stored one. An absent role or the stored role changes nothing. |
| Users.UpdateDecision | src/users/users.service.ts:119-133 | SelfAccessOnly iff a CUSTOMER caller targets another id. ElevationDenied iff, that aside, the role is changed by an absent or non-elevated caller. Allowed in every other case. |
| Users.RemoveDecision | src/users/users.service.ts:161-168 | ProtectedRole iff the target is SUPER_ADMIN and the caller is not (checked first). Then SelfAccessOnly iff a CUSTOMER targets someone else. Otherwise allowed. |
| Users.CustomerOnly | src/users/users.service.ts:178-187 | Succeeds exactly for a CUSTOMER, answering its id and e-mail. Fails Forbidden otherwise, with the reason. |
| Users.AdminOnly | src/users/users.service.ts:189-198 | Succeeds exactly for an ADMIN; a SUPER_ADMIN is refused. |
| Users.SuperAdminOnly | src/users/users.service.ts:200-209 | Succeeds exactly for a SUPER_ADMIN. |
| Users.ProtectedRoute | src/users/users.service.ts:211-220 | Succeeds exactly for a present user of any role, answering the e-mail. |
| Users.AdminOrSuperAdmin | src/users/users.service.ts:222-234 | Succeeds exactly for ADMIN or SUPER_ADMIN, answering id and role. |
| Users.GetProfile | src/users/users.service.ts:239-273 | No user gives Forbidden. Otherwise it returns the user's own id, name, e-mail and role. The permission list is absent exactly for a CUSTOMER, the three ADMIN permissions for an ADMIN, and the four SUPER_ADMIN permissions for a SUPER_ADMIN. |
| Users.OptionalAuth | src/users/users.service.ts:285-290 | Never refuses. The message says whether there is a caller; the e-mail is reported iff there is a caller with a non-empty e-mail. |
| Users.UsersService.FindById | src/users/users.service.ts:293-295 | Finds a stored user with that id, and reports none exactly when no row has it. |
| Users.UsersService.FindByEmail | src/users/users.service.ts:297-299 | Finds a stored user with exactly that e-mail, and reports none exactly when no row has it. |
| Users.UsersService.CreateUser | src/users/users.service.ts:38-69 | Conflict when the untrimmed e-mail is stored, then the role rule. Only on success is the user appended under the next id, with trimmed e-mail and name and the assigned role. The table is unchanged on error. |
| Users.UsersService.GetAllUsers | src/users/users.service.ts:76-84 | Page 1 and limit 10 by default. The users from row `(page-1)*limit` on, at most `limit` of them. The page length is exact: no rows past the end, otherwise every row to the end when the limit is 0 or the table ends first, else `limit` rows. |
| Users.UsersService.GetOneUser | src/users/users.service.ts:88-102 | NotFound iff the id is missing, and that is checked before permissions. A CUSTOMER reading another id is refused; ADMIN and SUPER_ADMIN always receive the stored record. |
| Users.UsersService.UpdateUser | src/users/users.service.ts:105-148 | NotFound iff missing. Otherwise it succeeds iff `UpdateDecision` allows, and errors leave the table unchanged. On success only that row changes: name and e-mail are trimmed when given, and the role is never written. When a password is given, the stored one becomes `rehashed`, the hash of the stored password. |
| Users.UsersService.Remove | src/users/users.service.ts:152-171 | NotFound iff missing, then `RemoveDecision`. On success exactly the rows with that id leave the table. |
| Users.UsersService.UpdatePassword | src/users/users.service.ts:301-310 | A missing user is a plain Error. Otherwise only that user's password becomes the given string, unhashed. |
| Categories.Renamed | src/categories/categories.service.ts:65-75 | The category after an update keeps its id. A truthy name different from the stored one is written; otherwise the category is unchanged. |
| Categories.RenamedKeepsIdentity | src/categories/categories.service.ts:65-75 | An update keeps the id. An absent, empty or identical name changes nothing, and renaming twice equals renaming once. |
| Categories.CategoriesService.FindByName | src/categories/categories.service.ts:20-22 | Finds a stored category with exactly that name, or reports none exactly when none has it. |
| Categories.CategoriesService.FindOne | src/categories/categories.service.ts:44-54 | The stored category with that id, or NotFound exactly when none has it. |
| Categories.CategoriesService.FindAll | src/categories/categories.service.ts:33-41 | `count` is the number of all categories. The rows newest first, starting after `offset` rows (default 0), at most `limit` of them (default 10). The page length is exact: no rows past the end, otherwise every row to the end when the limit is 0 or the table ends first, else `limit` rows. |
| Categories.CategoriesService.Create | src/categories/categories.service.ts:16-30 | Conflict iff the name is taken, leaving the table unchanged. Otherwise the category is appended under the next id. Names stay pairwise distinct. |
| Categories.CategoriesService.Update | src/categories/categories.service.ts:57-78 | NotFound iff missing. Conflict iff a truthy, different name is already taken. It succeeds exactly when neither holds, and then the row is replaced by its renamed version. Errors change nothing, and names stay distinct. |
| Categories.CategoriesService.Remove | src/categories/categories.service.ts:81-85 | NotFound iff missing. Otherwise exactly that row leaves the table, with the fixed message. Names stay distinct. |
| Products.Patch | src/products/products.service.ts:94-135 | The product after an update keeps its id. A truthy, different name is written, otherwise the name stays. Each of desc, price and stock takes the body's value when given and keeps the stored one when not. The category link is kept when `categoryId` is left out, cleared for `null` (the intended behaviour, see Findings), and set for an id. |
| Products.PatchAsSaved | src/products/products.service.ts:119-122 | The row the save stores as the code is written: for `categoryId: null` the stored link is kept, because `undefined` relations are skipped. Every other field is as `Patch` says. |
| Products.DetachAsWrittenKeepsLink | src/products/products.service.ts:119-122 | For a linked product and a body of only `categoryId: null`, the saved row as written is still linked, while the intended `Patch` clears the link. |
| Products.PatchIsPartialUpdate | src/products/products.service.ts:94-135 | A product update keeps the id, an empty body changes nothing, and applying the same body twice equals applying it once. |
| Products.ProductsService.FindByName | src/products/products.service.ts:25-27 | Finds a stored product with exactly that name, or reports none exactly when none has it. |
| Products.ProductsService.FindOne | src/products/products.service.ts:72-83 | The stored product with that id, or NotFound exactly when none has it. |
| Products.ProductsService.FindAll | src/products/products.service.ts:57-69 | `count` is the number of all products. The rows newest first, starting after `offset` rows (default 0), at most `limit` of them (default 10). The page length is exact: no rows past the end, otherwise every row to the end when the limit is 0 or the table ends first, else `limit` rows. |
| Products.ProductsService.Create | src/products/products.service.ts:20-54 | Conflict iff the name is taken. Then NotFound iff a given category id names no category. It succeeds exactly when neither holds, and then the product is appended, with its category link or none. Errors change nothing, and names stay distinct. |
| Products.ProductsService.Update | src/products/products.service.ts:86-138 | NotFound for a missing product. Conflict iff a truthy, different name is taken. NotFound for a link to a missing category. It succeeds exactly when none of these holds. Any error leaves the table unchanged. On success only that row becomes its `Patch`ed version, and names stay distinct. `null` clears the link here, as intended (see Findings). |
| Products.ProductsService.Remove | src/products/products.service.ts:141-145 | NotFound iff missing. Otherwise exactly that row leaves the table, with the fixed message. |
| ProductImages.Matches | src/product_images/product_images.service.ts:61-63 | A row matches the `where` of `getAll` only when it agrees with each criterion that is given. With neither criterion given, every row matches. |
| ProductImages.OtherImagesOf | src/product_images/product_images.service.ts:107-108 | The criteria of the sibling clear select only images of the same product other than the updated image itself. |
| ProductImages.ClearPrimary | src/product_images/product_images.service.ts:28-31 | The bulk flag reset keeps every row's id and product. Rows matching the filter are no longer primary; every other row is unchanged. |
| ProductImages.CurrentPage | src/product_images/product_images.service.ts:58 | `page \|\| 1` is the given page when that is present and not 0, and 1 otherwise, so it is never 0. |
| ProductImages.CurrentLimit | src/product_images/product_images.service.ts:59 | `limit \|\| 10` is the given limit when that is present and not 0, and 10 otherwise, so it is never 0. |
| ProductImages.ClearPrimaryKeeps | src/product_images/product_images.service.ts:27-32 | Clearing flags keeps the id discipline and the one-primary-per-product rule. |
| ProductImages.AltTextFor | src/product_images/product_images.service.ts:42 | A truthy alt text from the body is used as it is. Otherwise the text is the product name, then ` image `, then decimal digits that read as `index + 1`. |
| ProductImages.NewImage | src/product_images/product_images.service.ts:38-43 | The image built for one file carries the given id and the requested product, its url is `uploads/productImages/` followed by the file name, and it can be primary only at index 0. |
| ProductImages.NewImages | src/product_images/product_images.service.ts:36-47 | The loop builds exactly one image per file. |
| ProductImages.DefaultAltTextsDistinct | src/product_images/product_images.service.ts:42 | Default alt texts `"<name> image <i+1>"` of different positions differ, because the rendered number reads back. |
| ProductImages.NewImagesShape | src/product_images/product_images.service.ts:36-47 | One image per file, in file order, all for the requested product. Each url is `uploads/productImages/` + filename, and each alt text is the given one or the default. Only the first image can be primary, exactly when asked. |
| ProductImages.FilterKeepsAtMostOnePrimary | src/product_images/product_images.service.ts:132-140 | Deleting images keeps the one-primary rule. |
| ProductImages.Assign | src/product_images/product_images.service.ts:116 | `Object.assign` keeps the id and the url. Each of product, flag and alt text takes the body's value when given and keeps the stored one when not. |
| ProductImages.ClearedSiblings | src/product_images/product_images.service.ts:106-111 | The first write of `update` leaves the image itself alone, and changes nothing unless the body says `isPrimary: true`. |
| ProductImages.UpdatedTable | src/product_images/product_images.service.ts:106-118 | The table after `update` has the same length; every other row is unchanged, or only loses its flag when the body says `isPrimary: true`. |
| ProductImages.UpdatedTableEffect | src/product_images/product_images.service.ts:106-118 | After an update the image carries the body's fields. With `isPrimary: true`, every other image of its current product is non-primary. All other rows are exactly as before. |
| ProductImages.UpdateKeepsAtMostOnePrimary | src/product_images/product_images.service.ts:103-118 | An update keeps the one-primary rule whenever the image stays with its product or ends up not primary. |
| ProductImages.MovingPrimaryImageCanDuplicate | src/product_images/product_images.service.ts:106-110 | Moving an image to another product with `isPrimary: true` can leave that product with two primary images, because only the old product's images are cleared. |
| ProductImages.ProductLookupAsWritten | src/product_images/product_images.service.ts:25 | The call to the undeclared `getOne` fails for every product id (see Findings). |
| ProductImages.AsWrittenLookupRejectsStoredProduct | src/product_images/product_images.service.ts:25 | The lookup as written fails even for a stored product, which `findOne` finds (see Findings). |
| ProductImages.ProductImagesService.Create | src/product_images/product_images.service.ts:21-50 | NotFound iff the product is missing, changing nothing. Otherwise, with `isPrimary`, the product's stored images lose the flag (other rows untouched), and the new images are appended in file order. The one-primary rule is kept. |
| ProductImages.ProductImagesService.SaveImages | src/product_images/product_images.service.ts:34-47 | The loop saves `NewImages` under consecutive ids, appended after the existing rows, and keeps the id and one-primary invariants. |
| ProductImages.ProductImagesService.GetAll | src/product_images/product_images.service.ts:53-69 | Every returned image matches the given product and flag filters. The page is the matching rows, oldest first, from `((page \|\| 1) - 1) * (limit \|\| 10)` on, exactly `limit \|\| 10` of them unless the matching rows end first. |
| ProductImages.ProductImagesService.GetAllDefaults | src/product_images/product_images.service.ts:58-59 | Without paging parameters the answer is the first ten matching images. |
| ProductImages.ProductImagesService.GetAllNextPage | src/product_images/product_images.service.ts:58-65 | Pages `p` and `p+1` are adjacent: together they are the `2*limit` window that starts at page `p`. |
| ProductImages.ProductImagesService.GetOne | src/product_images/product_images.service.ts:72-80 | The stored image with that id, or NotFound exactly when none has it. |
| ProductImages.ProductImagesService.GetByProductId | src/product_images/product_images.service.ts:83-91 | NotFound iff the product is missing. Otherwise exactly the product's images, each once, with ids increasing (oldest first). |
| ProductImages.ProductImagesService.MovesToMissingProduct | src/product_images/product_images.service.ts:118 | The save breaks the `product_id` foreign key only when the body names a product id that differs from the stored one and no product has it. |
| ProductImages.ProductImagesService.Update | src/product_images/product_images.service.ts:94-119 | NotFound iff missing, changing nothing. With `isPrimary: true` the siblings' flag is cleared first (`ClearedSiblings`). The save then fails (Internal) iff the body moves the image to a product that is not stored, breaking the `product_id` foreign key; the clear stays written. Otherwise the result is `Object.assign` of the body onto the stored image, and the table becomes `UpdatedTable`. The one-primary rule is kept unless a primary image changes product. |
| ProductImages.ProductImagesService.Remove | src/product_images/product_images.service.ts:122-129 | NotFound iff missing. Otherwise exactly that image leaves the table and is returned with the message naming its id. |
| ProductImages.ProductImagesService.RemoveByProductId | src/product_images/product_images.service.ts:132-140 | Exactly the product's images leave the table; every other image stays, in order. |
| AccessPolicy.AssignRoleFollowsPolicy | src/users/users.service.ts:50-58 | The creation role rule refuses exactly when the policy denies account creation, and for the same reason. |
| AccessPolicy.PublicSignupNeverElevates | src/users/users.controller.ts:49 | Without a creator, as on the public signup route, only CUSTOMER accounts can be created. |
| AccessPolicy.ReadOneFollowsPolicy | src/users/users.service.ts:97-99 | The read rule equals the policy's READ_ONE decision. |
| AccessPolicy.UpdateFollowsPolicy | src/users/users.service.ts:119-127 | With a caller, the update rule equals the policy's UPDATE decision. |
| AccessPolicy.AnonymousUpdateDiffers | src/users/users.service.ts:128-133 | Without a caller the policy refuses as unauthenticated. The service instead allows every update that does not change the role. |
| AccessPolicy.RemoveFollowsPolicy | src/users/users.service.ts:161-168 | The removal rule equals the policy's DELETE decision. |
| AccessPolicy.RoleGateFollowsPolicy | src/users/users.service.ts:25-33 | The role gate equals the policy's role-set decision. |
| AccessPolicy.CustomerConfinedToSelf | src/users/users.service.ts:97-166 | A CUSTOMER acting on another user is refused SelfAccessOnly on read and update. On delete too, except that a SUPER_ADMIN target is refused ProtectedRole first. |
| AccessPolicy.SuperAdminProtected | src/users/users.service.ts:161-163 | A SUPER_ADMIN can be removed exactly by a SUPER_ADMIN. |
| AccessPolicy.PrivilegedReadAndUpdateAnyone | src/users/users.service.ts:97-127 | The read and update rules never refuse an ADMIN or SUPER_ADMIN caller, even when the body asks for a role change. `UpdateUser` still keeps the stored role, since no line writes it. |
| AccessPolicy.CustomerSelfUpdate | src/users/users.service.ts:119-127 | A CUSTOMER may update their own record exactly when the role is not changed; a role change is ElevationDenied. |
| AccessPolicy.GetOneUserFollowsPolicy | src/users/users.service.ts:88-102 | For an existing record, `GetOneUser` succeeds exactly when the policy allows READ_ONE, and otherwise fails with the policy's reason. |
| Text.Trim | src/users/users.service.ts:63-64 | `trim` returns the contiguous piece of the input left after dropping only white space at the start and at the end; the piece neither starts nor ends with white space. |
| Text.TrimIdempotent | src/users/users.service.ts:63-64 | Trimming twice is trimming once. |
| Text.NatToString | src/product_images/product_images.service.ts:42 | `${n}` renders a non-negative number as at least one decimal digit, with no leading zero unless the number is 0. |
| Text.NatToStringRoundTrip | src/product_images/product_images.service.ts:42 | The decimal rendering of a number reads back as that number. |
| Repository.Renames | src/categories/categories.service.ts:64 | The truthy-and-different test on a new name (also products.service.ts:94): a rename has a present, non-empty name that differs from the current one. An absent, empty or identical name is no rename. |
| Repository.FindIndex | src/categories/categories.service.ts:45-47 | `findOne({ where })` finds the first row that matches, with no earlier row matching. It finds nothing exactly when no row matches. |
| Repository.Find | src/users/users.service.ts:293-299 | `findOne({ where })` returns a matching row of the table, or nothing exactly when no row matches. |
| Repository.SkipFor | src/users/users.service.ts:80 | `(page - 1) * limit` is not negative for a page of at least 1 and a non-negative limit, and it is 0 on page 1. |
| Repository.Filter | src/product_images/product_images.service.ts:133-135 | `find({ where })` returns only matching rows of the table and every matching row. |
| Repository.FilterKeyed | src/product_images/product_images.service.ts:138 | Deleting rows keeps ids increasing and below the next id. |
| Repository.FilterDistinct | src/categories/categories.service.ts:83 | Deleting rows keeps a unique column unique. |
| Repository.Window | src/categories/categories.service.ts:34-38 | `skip`/`take` paging returns the rows from `skip` on, in order: exactly `take` of them unless the table ends first, and all of them when `take` is 0 (TypeORM adds no LIMIT for a falsy `take`). |
| Repository.NewestFirst | src/categories/categories.service.ts:37 | `createdAt DESC` lists row `i` from the end at position `i`. |
| Repository.ConsecutivePages | src/users/users.service.ts:80-81 | Numbered pages tile the table: page `p+1` starts where page `p` ends. With limit 0 every page is the whole table. |

## Left out

- Password hashing: bcrypt is a foreign, salted function. `CreateUser` takes the hash as a parameter (`hashedPassword`). `UpdateUser` takes `rehashed`, which stands for the hash of the *stored* password: that is the value source line 144 hashes, not the new password.
- Users.UsersService.UpdateUser: its contract does not say that the new password reaches the table, because the source does not store it (see the previous line).
- The controllers, the Nest module wiring, `main.ts`, validation and Swagger decorators, and the multer upload are left out. The model takes the stored file names as the `images` input. They are generated from the clock and a random number.
- ORM relation loading (`relations: [...]`) and database cascades (`onDelete: CASCADE / SET NULL`) are left out, because the database enforces them rather than this code. TypeORM's clearing of the id on a removed entity is also left out; `Remove` hands back the row as stored.
- `createdAt` and `updatedAt`: insertion order stands for `createdAt`. Images of the same product never share a timestamp, so the secondary `isPrimary` sort of `getByProductId` has no effect in the model.
- Repository.Window: a negative `skip` counts as 0 and a negative `take` gives an empty page. PostgreSQL rejects a negative OFFSET or LIMIT with an error, which is not modelled; this arises for a page below 1 or a negative limit.
- ProductImages.ProductImagesService.Update: the foreign-key failure is modelled as `Internal`; the database's error text is not.
- `async`/`await` is dropped: every service method runs its awaits in sequence, so the model is sequential. Concurrent requests and the unique-name race between the lookup and the save are not modelled.
- JSON `null` in request bodies is left out, except `categoryId: null` on a product update (`CategoryPatch.Detach`). A `null` name, e-mail or description, where the source would call `trim` on `null` or store `null`, is not modelled.
- The decimal `price` column is a whole number; its precision and rounding are not modelled.
- The "Unknown role" branch of `getProfile` (src/users/users.service.ts:275-278) is unreachable for the three roles, and is not modelled.
- The users entity and the update DTOs of users, products and categories are not part of this model.
  - Role values are assumed to be non-empty strings, so `role && ...` tests presence.
  - The product create body is read under `desc`, as the service destructures it. The create DTO declares the field as `description`, so a validated request never carries `desc`, and a product's description is never set on create.
- Users.UsersService.GetAllUsers: the query builder has no `orderBy`, so the database order is unspecified; the model answers in insertion order.
- Text.Trim: the white-space set is JavaScript's, given code point by code point; Unicode category tables are not modelled.

## Findings

| source | as written | input that shows it | evidently intended | confidence | as-written member | corrected member |
|---|---|---|---|---|---|---|
| src/products/products.service.ts:119-122 | `update` with `categoryId: null` sets `product.category = undefined` and then calls `save`. TypeORM's change detection skips a relation whose value is `undefined` and writes a null link only for `null`. So the stored `categoryId` is unchanged, and only the returned object loses its category. This is a reading of the ORM's source. | A product linked to category 3, updated with `{categoryId: null}`: it is still linked to category 3 in the table. | Clear the link: assign `null` to `product.category`. | medium (not executed) | Products.PatchAsSaved, Products.DetachAsWrittenKeepsLink | Products.Patch (used by Products.ProductsService.Update) |
| src/product_images/product_images.service.ts:25 | `create` and `getByProductId` (line 85) call `this.productsService.getOne`. `ProductsService` declares no such method; its lookup is `findOne` (src/products/products.service.ts:72). The type checker rejects the call, and if it is emitted anyway the call throws a TypeError. | Any request, e.g. `create({productId: 1, isPrimary: false})` with product 1 stored: the lookup fails instead of finding it. | Look the product up with `findOne`: NotFound when it is missing, the product otherwise. | high (not executed) | ProductImages.ProductLookupAsWritten, ProductImages.AsWrittenLookupRejectsStoredProduct | Products.ProductsService.FindOne (used by ProductImages.ProductImagesService.Create and GetByProductId) |

=== FILE: access_policy.dfy ===
/** A centralized authorization policy: one decision function over (principal,
    operation), stated independently of the service code, and the proof that
    each rule the user service applies agrees with it, with the one place where
    it does not (an update without a caller). */
module AccessPolicy {
  import opened Common
  import opened Users

  /** The roles that may grant roles and read or change any record. */
  const Privileged: set<UserRole> := {Admin, SuperAdmin}

  /** An operation together with what the decision needs to know about its target. */
  datatype Operation =
    | CreateAccount(requestedRole: Option<UserRole>, creator: Option<User>)
    | ReadAll
    | ReadOne(targetId: int)
    | UpdateRecord(targetId: int, storedRole: UserRole, requestedRole: Option<UserRole>)
    | DeleteRecord(targetId: int, targetRole: UserRole)
    | RoleGated(allowedRoles: seq<UserRole>)

  /** The reference policy. */
  function Decide(principal: Option<User>, op: Operation): Decision {
    match op
    case CreateAccount(requested, creator) =>
      var honoured := requested.None? || requested.value == Customer || (creator.Some? && creator.value.role in Privileged);
      if honoured then Allow else Deny(ElevationDenied)
    case ReadAll => Allow
    case ReadOne(target) =>
      if principal.None? then Deny(Unauthenticated)
      else if principal.value.role in Privileged || principal.value.id == target then Allow
      else Deny(SelfAccessOnly)
    case UpdateRecord(target, stored, requested) =>
      if principal.None? then Deny(Unauthenticated)
      else if principal.value.role !in Privileged && principal.value.id != target then Deny(SelfAccessOnly)
      else if requested.None? || requested.value == stored || principal.value.role in Privileged then Allow
      else Deny(ElevationDenied)
    case DeleteRecord(target, role) =>
      if principal.None? then Deny(Unauthenticated)
      else if role == SuperAdmin && principal.value.role != SuperAdmin then Deny(ProtectedRole)
      else if principal.value.role !in Privileged && principal.value.id != target then Deny(SelfAccessOnly)
      else Allow
    case RoleGated(allowed) =>
      if principal.None? then Deny(Unauthenticated)
      else if principal.value.role in allowed then Allow
      else Deny(InsufficientRole)
  }

  /** Signup and admin creation follow the policy: the role rule refuses exactly
      when the policy denies, and for the same reason. */
  lemma AssignRoleFollowsPolicy(requested: Option<UserRole>, creator: Option<User>, principal: Option<User>)
    ensures AssignRole(requested, creator).Ok? <==> Decide(principal, CreateAccount(requested, creator)) == Allow
    ensures AssignRole(requested, creator).Err? ==>
      Decide(principal, CreateAccount(requested, creator)) == Deny(AssignRole(requested, creator).error.reason)
  {
  }

  /** The public signup route passes no creator, so it can only ever create
      customers: asking for an elevated role there is refused. */
  lemma PublicSignupNeverElevates(requested: Option<UserRole>)
    ensures AssignRole(requested, None).Ok? ==> AssignRole(requested, None).value == Customer
    ensures requested.Some? && IsElevated(requested.value) ==> AssignRole(requested, None) == Err(Forbidden(ElevationDenied))
  {
  }

  lemma ReadOneFollowsPolicy(caller: User, targetId: int)
    ensures ReadOneDecision(caller, targetId) == Decide(Some(caller), ReadOne(targetId))
  {
  }

  /** With a caller, the update rule is the policy's. */
  lemma UpdateFollowsPolicy(caller: User, targetId: int, stored: UserRole, requested: Option<UserRole>)
    ensures UpdateDecision(Some(caller), targetId, stored, requested) == Decide(Some(caller), UpdateRecord(targetId, stored, requested))
  {
  }

  /** Without a caller the service is laxer than the policy: the policy refuses
      every anonymous update, the service refuses only a role change. */
  lemma AnonymousUpdateDiffers(targetId: int, stored: UserRole, requested: Option<UserRole>)
    ensures Decide(None, UpdateRecord(targetId, stored, requested)) == Deny(Unauthenticated)
    ensures UpdateDecision(None, targetId, stored, requested) == Allow <==> !ChangesRole(stored, requested)
  {
  }

  lemma RemoveFollowsPolicy(caller: User, target: User)
    ensures RemoveDecision(caller, target) == Decide(Some(caller), DeleteRecord(target.id, target.role))
  {
  }

  lemma RoleGateFollowsPolicy(actor: Option<User>, allowedRoles: seq<UserRole>)
    ensures EnsureHasOneOfRole(actor, allowedRoles) == Decide(actor, RoleGated(allowedRoles))
  {
  }

  /** A CUSTOMER is confined to their own record: reading, updating or deleting
      another user is refused as self-access-only, except that deleting a
      SUPER_ADMIN is refused first as protected. */
  lemma CustomerConfinedToSelf(p: User, target: User, requested: Option<UserRole>)
    requires p.role == Customer && p.id != target.id
    ensures ReadOneDecision(p, target.id) == Deny(SelfAccessOnly)
    ensures UpdateDecision(Some(p), target.id, target.role, requested) == Deny(SelfAccessOnly)
    ensures target.role != SuperAdmin ==> RemoveDecision(p, target) == Deny(SelfAccessOnly)
    ensures target.role == SuperAdmin ==> RemoveDecision(p, target) == Deny(ProtectedRole)
  {
  }

  /** Only a SUPER_ADMIN may delete a SUPER_ADMIN. */
  lemma SuperAdminProtected(p: User, target: User)
    requires target.role == SuperAdmin
    ensures RemoveDecision(p, target) == Allow <==> p.role == SuperAdmin
  {
  }

  /** The read and update rules never refuse an ADMIN or SUPER_ADMIN caller, even
      when the body asks for a role change. `UpdateUser` still keeps the stored
      role, since the service never writes it. */
  lemma PrivilegedReadAndUpdateAnyone(p: User, targetId: int, stored: UserRole, requested: Option<UserRole>)
    requires IsElevated(p.role)
    ensures ReadOneDecision(p, targetId) == Allow
    ensures UpdateDecision(Some(p), targetId, stored, requested) == Allow
  {
  }

  /** A customer updating their own record: any non-role change is allowed, a
      role change is refused. */
  lemma CustomerSelfUpdate(p: User, stored: UserRole, requested: Option<UserRole>)
    requires p.role == Customer
    ensures UpdateDecision(Some(p), p.id, stored, requested) == Allow <==> !ChangesRole(stored, requested)
    ensures ChangesRole(stored, requested) ==> UpdateDecision(Some(p), p.id, stored, requested) == Deny(ElevationDenied)
  {
  }

  /** The service's `GetOneUser` applies the policy to an existing record. */
  lemma GetOneUserFollowsPolicy(service: UsersService, id: int, caller: User)
    requires service.FindById(id).Some?
    ensures service.GetOneUser(id, caller).Ok? <==> Decide(Some(caller), ReadOne(id)) == Allow
    ensures service.GetOneUser(id, caller).Err? ==>
      Decide(Some(caller), ReadOne(id)) == Deny(service.GetOneUser(id, caller).error.reason)
  {
  }
}

=== FILE: categories.dfy ===
/** The category service: a table of uniquely named categories. */
module Categories {
  import opened Common
  import opened Repository

  /** A row of the `categories` table. */
  datatype Category = Category(id: int, name: string)

  /** The create body; `description` is accepted but there is no column for it. */
  datatype CreateCategoryDto = CreateCategoryDto(name: string, description: Option<string>)

  datatype UpdateCategoryDto = UpdateCategoryDto(name: Option<string>)

  function CategoryId(c: Category): int {
    c.id
  }

  function CategoryName(c: Category): string {
    c.name
  }

  function IdIs(id: int): Category -> bool {
    (c: Category) => c.id == id
  }

  function IdIsNot(id: int): Category -> bool {
    (c: Category) => c.id != id
  }

  function NameIs(name: string): Category -> bool {
    (c: Category) => c.name == name
  }

  /** The category after an update: only a truthy, different name is written. */
  function Renamed(c: Category, dto: UpdateCategoryDto): (r: Category)
    ensures r.id == c.id
    ensures Renames(c.name, dto.name) ==> r.name == dto.name.value
    ensures !Renames(c.name, dto.name) ==> r == c
  {
    if Renames(c.name, dto.name) then c.(name := dto.name.value) else c
  }

  /** Renaming keeps the id, and an absent, empty or identical name changes nothing. */
  lemma RenamedKeepsIdentity(c: Category, dto: UpdateCategoryDto)
    ensures Renamed(c, dto).id == c.id
    ensures dto.name.None? || dto.name == Some("") || dto.name == Some(c.name) ==> Renamed(c, dto) == c
    ensures Renamed(Renamed(c, dto), dto) == Renamed(c, dto)
  {
  }

  class CategoriesService {
    var categoryRepository: seq<Category>
    var nextId: int

    ghost predicate Valid()
      reads this
    {
      Keyed(categoryRepository, CategoryId, nextId)
    }

    /** Category names are pairwise distinct. */
    ghost predicate NamesDistinct()
      reads this
    {
      Distinct(categoryRepository, CategoryName)
    }

    constructor ()
      ensures Valid() && NamesDistinct() && categoryRepository == [] && nextId == 1
    {
      categoryRepository := [];
      nextId := 1;
    }

    /** The first category with exactly this name, if any. */
    function FindByName(name: string): (r: Option<Category>)
      reads this
      ensures r.Some? ==> r.value in categoryRepository && r.value.name == name
      ensures r.None? <==> forall k :: 0 <= k < |categoryRepository| ==> categoryRepository[k].name != name
    {
      Find(categoryRepository, NameIs(name))
    }

    /** `findOne`: the category with this id, or NotFound. */
    function FindOne(id: int): (r: Result<Category>)
      reads this
      ensures r.Ok? ==> r.value in categoryRepository && r.value.id == id
      ensures r.Err? <==> forall k :: 0 <= k < |categoryRepository| ==> categoryRepository[k].id != id
      ensures r.Err? ==> r.error == NotFound
    {
      match Find(categoryRepository, IdIs(id))
      case None => Err(NotFound)
      case Some(c) => Ok(c)
    }

    /** `findAll`: newest first, `offset` rows skipped (default 0), at most `limit`
        rows (default 10), together with the number of all categories. */
    function FindAll(offset: Option<int>, limit: Option<int>): (r: Page<Category>)
      reads this
      ensures r.count == |categoryRepository|
      ensures limit.GetOr(10) > 0 ==> |r.data| <= limit.GetOr(10)
      ensures offset.GetOr(0) >= 0 && limit.GetOr(10) >= 0 ==>
        |r.data| == WindowLength(|categoryRepository|, offset.GetOr(0), limit.GetOr(10))
      ensures offset.GetOr(0) >= 0 ==>
        forall i :: 0 <= i < |r.data| ==>
          && offset.GetOr(0) + i < |categoryRepository|
          && r.data[i] == categoryRepository[|categoryRepository| - 1 - (offset.GetOr(0) + i)]
    {
      Page(Window(NewestFirst(categoryRepository), offset.GetOr(0), limit.GetOr(10)), |categoryRepository|)
    }

    /** `create`: a taken name is a Conflict; otherwise the category is stored
        under the next generated id. */
    method Create(dto: CreateCategoryDto) returns (r: Result<Category>)
      requires Valid()
      modifies this
      ensures Valid()
      ensures r == Err(Conflict) <==> old(FindByName(dto.name)).Some?
      ensures r.Err? ==> r == Err(Conflict) && categoryRepository == old(categoryRepository) && nextId == old(nextId)
      ensures r.Ok? ==> r.value == Category(old(nextId), dto.name)
      ensures r.Ok? ==> categoryRepository == old(categoryRepository) + [r.value] && nextId == old(nextId) + 1
      ensures old(NamesDistinct()) ==> NamesDistinct()
    {
      var existingCategory := FindByName(dto.name);
      if existingCategory.Some? {
        return Err(Conflict);
      }
      var category := Category(nextId, dto.name);
      KeyedAppend(categoryRepository, CategoryId, nextId, category);
      if NamesDistinct() {
        DistinctAppend(categoryRepository, CategoryName, category);
      }
      categoryRepository := categoryRepository + [category];
      nextId := nextId + 1;
      return Ok(category);
    }

    /** `update`: NotFound, then a Conflict when renaming to a name some category
        already has; the row is saved only when both checks pass. */
    method Update(id: int, dto: UpdateCategoryDto) returns (r: Result<Category>)
      requires Valid()
      modifies this
      ensures Valid() && nextId == old(nextId)
      ensures r.Err? ==> categoryRepository == old(categoryRepository)
      ensures r == Err(NotFound) <==> old(FindOne(id)).Err?
      ensures r == Err(Conflict) <==>
        old(FindOne(id)).Ok? && Renames(old(FindOne(id)).value.name, dto.name) && old(FindByName(dto.name.value)).Some?
      ensures r.Ok? <==>
        old(FindOne(id)).Ok? && !(Renames(old(FindOne(id)).value.name, dto.name) && old(FindByName(dto.name.value)).Some?)
      ensures r.Ok? ==> r.value == Renamed(old(FindOne(id)).value, dto)
      ensures r.Ok? ==>
        && |categoryRepository| == |old(categoryRepository)|
        && forall k :: 0 <= k < |categoryRepository| ==>
             categoryRepository[k] == if old(categoryRepository[k]).id == id then r.value else old(categoryRepository[k])
      ensures old(NamesDistinct()) ==> NamesDistinct()
    {
      var index := FindIndex(categoryRepository, IdIs(id));
      if index.None? {
        return Err(NotFound);
      }
      var i := index.value;
      var category := categoryRepository[i];
      KeyedReplace(categoryRepository, CategoryId, nextId, i, category);
      assert FindOne(id) == Ok(category);
      if Renames(category.name, dto.name) {
        var existingCategory := FindByName(dto.name.value);
        if existingCategory.Some? {
          return Err(Conflict);
        }
        category := category.(name := dto.name.value);
      }
      KeyedReplace(categoryRepository, CategoryId, nextId, i, category);
      DistinctReplace(categoryRepository, CategoryName, i, category);
      categoryRepository := categoryRepository[i := category];
      return Ok(category);
    }

    /** `remove`: NotFound, or exactly the row with this id leaves the table. */
    method Remove(id: int) returns (r: Result<string>)
      requires Valid()
      modifies this
      ensures Valid() && nextId == old(nextId)
      ensures r.Err? <==> old(FindOne(id)).Err?
      ensures r.Err? ==> r.error == NotFound && categoryRepository == old(categoryRepository)
      ensures r.Ok? ==> r.value == "Category deleted successfully"
      ensures r.Ok? ==> categoryRepository == Filter(old(categoryRepository), IdIsNot(id))
      ensures old(NamesDistinct()) ==> NamesDistinct()
    {
      var category := FindOne(id);
      if category.Err? {
        return Err(category.error);
      }
      FilterKeyed(categoryRepository, CategoryId, nextId, IdIsNot(id));
      if NamesDistinct() {
        FilterDistinct(categoryRepository, CategoryName, IdIsNot(id));
      }
      categoryRepository := Filter(categoryRepository, IdIsNot(id));
      return Ok("Category deleted successfully");
    }
  }
}

=== FILE: common.dfy ===
/** Shared vocabulary of the services: optional values, the HTTP exceptions they
    throw, and the outcome of an authorization rule. */
module Common {

  datatype Option<T> = None | Some(value: T) {
    /** The value, or `default` when absent (a destructuring default). */
    function GetOr(default: T): T {
      if Some? then value else default
    }
  }

  /** Why a request was refused with a ForbiddenException. */
  datatype Reason =
    | Unauthenticated   // no user object where one is needed
    | SelfAccessOnly    // a CUSTOMER touching a record that is not theirs
    | InsufficientRole  // role outside the allowed set of a role-gated route
    | ElevationDenied   // setting a role the caller may not grant
    | ProtectedRole     // removing a SUPER_ADMIN without being one

  /** The exceptions the services raise: NotFoundException, ConflictException,
      ForbiddenException, and any plain JavaScript error (a 500). */
  datatype Error = NotFound | Conflict | Forbidden(reason: Reason) | Internal

  datatype Result<T> = Ok(value: T) | Err(error: Error)

  /** Outcome of one authorization rule. */
  datatype Decision = Allow | Deny(reason: Reason)
}

=== FILE: product_images.dfy ===
/** The product-image service: uploaded pictures of a product, at most one of
    which is meant to be the product's primary image. */
module ProductImages {
  import opened Common
  import opened Text
  import opened Repository
  import Products

  /** A row of the `product_images` table. */
  datatype ProductImage = ProductImage(id: int, productId: int, imageUrl: string, isPrimary: bool, altText: string)

  datatype CreateProductImagesDto = CreateProductImagesDto(productId: int, isPrimary: bool, altText: Option<string>)

  /** Every field of the create body, each optional. */
  datatype UpdateProductImagesDto = UpdateProductImagesDto(productId: Option<int>, isPrimary: Option<bool>, altText: Option<string>)

  /** What `remove` answers: a message naming the id, and the removed row. */
  datatype RemovedImage = RemovedImage(message: string, deletedImage: ProductImage)

  /** Where the upload middleware stores the files, relative to the server. */
  const UploadDir := "uploads/productImages/"

  function ImageId(img: ProductImage): int {
    img.id
  }

  function IdIs(id: int): ProductImage -> bool {
    (img: ProductImage) => img.id == id
  }

  function IdIsNot(id: int): ProductImage -> bool {
    (img: ProductImage) => img.id != id
  }

  function OfProduct(productId: int): ProductImage -> bool {
    (img: ProductImage) => img.productId == productId
  }

  function NotOfProduct(productId: int): ProductImage -> bool {
    (img: ProductImage) => img.productId != productId
  }

  /** The images of product `productId` other than image `id`. */
  function OtherImagesOf(productId: int, id: int): (r: ProductImage -> bool)
    ensures forall img :: r(img) ==> img.productId == productId && img.id != id
    ensures forall img: ProductImage :: img.productId != productId || img.id == id ==> !r(img)
  {
    (img: ProductImage) => img.productId == productId && img.id != id
  }

  /** The `where` of `getAll`: an undefined criterion matches every row. */
  function Matches(productId: Option<int>, isPrimary: Option<bool>): (r: ProductImage -> bool)
    ensures forall img :: r(img) ==> productId.None? || img.productId == productId.value
    ensures forall img :: r(img) ==> isPrimary.None? || img.isPrimary == isPrimary.value
    ensures productId.None? && isPrimary.None? ==> forall img :: r(img)
  {
    (img: ProductImage) =>
      && (productId.None? || img.productId == productId.value)
      && (isPrimary.None? || img.isPrimary == isPrimary.value)
  }

  /** `page || 1`: an absent or zero page number means the first page. */
  function CurrentPage(page: Option<int>): (r: int)
    ensures r != 0 && (r == 1 || Some(r) == page)
    ensures page.Some? && page.value != 0 ==> r == page.value
    ensures page.None? || page.value == 0 ==> r == 1
  {
    if page.None? || page.value == 0 then 1 else page.value
  }

  /** `limit || 10`: an absent or zero limit means ten rows. */
  function CurrentLimit(limit: Option<int>): (r: int)
    ensures r != 0 && (r == 10 || Some(r) == limit)
    ensures limit.Some? && limit.value != 0 ==> r == limit.value
    ensures limit.None? || limit.value == 0 ==> r == 10
  {
    if limit.None? || limit.value == 0 then 10 else limit.value
  }

  /** The rule the service's own comment on `update` states (`isPrimary` exists for
      one image only): no product has two primary images. */
  ghost predicate AtMostOnePrimary(rows: seq<ProductImage>) {
    forall i, j :: 0 <= i < j < |rows| && rows[i].isPrimary && rows[j].isPrimary ==> rows[i].productId != rows[j].productId
  }

  /** The bulk `update(where, { isPrimary: false })`: the rows satisfying `p` lose
      the primary flag, every other row and every other column stays. */
  function ClearPrimary(rows: seq<ProductImage>, p: ProductImage -> bool): (r: seq<ProductImage>)
    ensures |r| == |rows|
    ensures forall k :: 0 <= k < |rows| ==> r[k].id == rows[k].id && r[k].productId == rows[k].productId
    ensures forall k :: 0 <= k < |rows| && p(rows[k]) ==> !r[k].isPrimary
    ensures forall k :: 0 <= k < |rows| && !p(rows[k]) ==> r[k] == rows[k]
    ensures forall k :: 0 <= k < |rows| ==> r[k] == rows[k] || r[k] == rows[k].(isPrimary := false)
  {
    seq(|rows|, k requires 0 <= k < |rows| => if p(rows[k]) then rows[k].(isPrimary := false) else rows[k])
  }

  /** Clearing flags keeps the key discipline and the one-primary rule. */
  lemma ClearPrimaryKeeps(rows: seq<ProductImage>, p: ProductImage -> bool, next: int)
    ensures Keyed(rows, ImageId, next) ==> Keyed(ClearPrimary(rows, p), ImageId, next)
    ensures AtMostOnePrimary(rows) ==> AtMostOnePrimary(ClearPrimary(rows, p))
  {
  }

  /** The alt text of the `index`-th uploaded image: the given text when it is
      truthy, otherwise "<product name> image <index + 1>". */
  function AltTextFor(altText: Option<string>, productName: string, index: nat): (r: string)
    ensures altText.Some? && altText.value != "" ==> r == altText.value
    ensures altText.None? || altText.value == "" ==>
      var n := |productName + " image "|;
      && |r| > n && r[..n] == productName + " image "
      && (forall k :: n <= k < |r| ==> IsDigit(r[k]))
      && DecimalValue(r[n..]) == index + 1
  {
    if altText.Some? && altText.value != "" then altText.value
    else
      var prefix := productName + " image ";
      var s := prefix + NatToString(index + 1);
      NatToStringRoundTrip(index + 1);
      assert s[|prefix|..] == NatToString(index + 1);
      s
  }

  /** The default alt texts of one product's images are pairwise different, and
      each one names its position: the rendered number reads back as `index + 1`. */
  lemma DefaultAltTextsDistinct(productName: string, i: nat, j: nat)
    requires i != j
    ensures AltTextFor(None, productName, i) != AltTextFor(None, productName, j)
  {
    var prefix := productName + " image ";
    var a, b := NatToString(i + 1), NatToString(j + 1);
    if prefix + a == prefix + b {
      assert a == (prefix + a)[|prefix|..] == (prefix + b)[|prefix|..] == b;
      NatToStringInjective(i + 1, j + 1);
      assert false;
    }
  }

  /** The image the loop builds for the `index`-th file, saved under `id`. */
  function NewImage(id: int, dto: CreateProductImagesDto, productName: string, filename: string, index: nat): (r: ProductImage)
    ensures r.id == id && r.productId == dto.productId
    ensures |r.imageUrl| >= |UploadDir| && r.imageUrl[..|UploadDir|] == UploadDir && r.imageUrl[|UploadDir|..] == filename
    ensures r.isPrimary ==> index == 0
  {
    ProductImage(id, dto.productId, UploadDir + filename, dto.isPrimary && index == 0, AltTextFor(dto.altText, productName, index))
  }

  /** The images `create` saves for `files`, the `k`-th under id `firstId + k`. */
  function NewImages(firstId: int, dto: CreateProductImagesDto, productName: string, files: seq<string>): (r: seq<ProductImage>)
    ensures |r| == |files|
  {
    seq(|files|, k requires 0 <= k < |files| => NewImage(firstId + k, dto, productName, files[k], k))
  }

  /** The loop's step: one more file adds its image at the end. */
  lemma NewImagesSnoc(firstId: int, dto: CreateProductImagesDto, productName: string, files: seq<string>, n: nat)
    requires n < |files|
    ensures NewImages(firstId, dto, productName, files[..n + 1])
         == NewImages(firstId, dto, productName, files[..n]) + [NewImage(firstId + n, dto, productName, files[n], n)]
  {
    var a := NewImages(firstId, dto, productName, files[..n + 1]);
    var b := NewImages(firstId, dto, productName, files[..n]) + [NewImage(firstId + n, dto, productName, files[n], n)];
    assert |a| == |b|;
    forall k | 0 <= k < |a|
      ensures a[k] == b[k]
    {
      assert files[..n + 1][k] == files[k];
      if k < n {
        assert files[..n][k] == files[k];
      }
    }
  }

  /** What the new images are: one per file, in file order, all of the requested
      product, each stored under the upload directory; only the first can be
      primary, and it is exactly when the body asks for it. */
  lemma NewImagesShape(firstId: int, dto: CreateProductImagesDto, productName: string, files: seq<string>)
    ensures var r := NewImages(firstId, dto, productName, files);
      && (forall k :: 0 <= k < |r| ==>
            && r[k].id == firstId + k
            && r[k].productId == dto.productId
            && r[k].imageUrl == UploadDir + files[k]
            && r[k].altText == AltTextFor(dto.altText, productName, k))
      && (forall k :: 0 < k < |r| ==> !r[k].isPrimary)
      && (|r| > 0 ==> r[0].isPrimary == dto.isPrimary)
  {
  }

  /** Appending a row keeps the one-primary rule when the row is not primary or
      no stored row of its product is. */
  lemma AppendKeepsAtMostOnePrimary(rows: seq<ProductImage>, x: ProductImage)
    requires x.isPrimary ==> forall k :: 0 <= k < |rows| && rows[k].isPrimary ==> rows[k].productId != x.productId
    ensures AtMostOnePrimary(rows) ==> AtMostOnePrimary(rows + [x])
  {
  }

  /** Deleting rows keeps the one-primary rule. */
  lemma {:induction false} FilterKeepsAtMostOnePrimary(rows: seq<ProductImage>, p: ProductImage -> bool)
    requires AtMostOnePrimary(rows)
    ensures AtMostOnePrimary(Filter(rows, p))
  {
    if rows != [] {
      FilterKeepsAtMostOnePrimary(rows[1..], p);
      var tail := Filter(rows[1..], p);
      forall k | 0 <= k < |tail| && rows[0].isPrimary && tail[k].isPrimary
        ensures rows[0].productId != tail[k].productId
      {
        var j :| 0 <= j < |rows[1..]| && rows[1..][j] == tail[k];
        assert rows[j + 1] == tail[k];
      }
    }
  }

  /** `Object.assign(existingImage, dto)`: every field present in the body
      overwrites the image's; the id and the url stay. */
  function Assign(img: ProductImage, dto: UpdateProductImagesDto): (r: ProductImage)
    ensures r.id == img.id && r.imageUrl == img.imageUrl
    ensures dto.productId.Some? ==> r.productId == dto.productId.value
    ensures dto.productId.None? ==> r.productId == img.productId
    ensures dto.isPrimary.Some? ==> r.isPrimary == dto.isPrimary.value
    ensures dto.isPrimary.None? ==> r.isPrimary == img.isPrimary
    ensures dto.altText.Some? ==> r.altText == dto.altText.value
    ensures dto.altText.None? ==> r.altText == img.altText
  {
    ProductImage(
      img.id,
      dto.productId.GetOr(img.productId),
      img.imageUrl,
      dto.isPrimary.GetOr(img.isPrimary),
      dto.altText.GetOr(img.altText))
  }

  /** The table after `update` of `target`: `target` takes the body's fields; when
      the body says `isPrimary: true`, every other image of `target`'s current
      product loses its flag; all other rows stay. */
  function UpdatedTable(rows: seq<ProductImage>, target: ProductImage, dto: UpdateProductImagesDto): (r: seq<ProductImage>)
    ensures |r| == |rows|
    ensures forall k :: 0 <= k < |rows| && rows[k].id != target.id ==>
      r[k] == rows[k] || (r[k] == rows[k].(isPrimary := false) && dto.isPrimary == Some(true))
  {
    seq(|rows|, k requires 0 <= k < |rows| =>
      if rows[k].id == target.id then Assign(target, dto)
      else if dto.isPrimary == Some(true) && rows[k].productId == target.productId then rows[k].(isPrimary := false)
      else rows[k])
  }

  /** `update` keeps the one-primary rule whenever the image stays with its
      product or ends up not primary. */
  lemma UpdateKeepsAtMostOnePrimary(rows: seq<ProductImage>, next: int, i: nat, dto: UpdateProductImagesDto)
    requires Keyed(rows, ImageId, next) && i < |rows|
    ensures var after := Assign(rows[i], dto);
      AtMostOnePrimary(rows) && (after.productId == rows[i].productId || !after.isPrimary) ==>
      AtMostOnePrimary(UpdatedTable(rows, rows[i], dto))
  {
    var r := UpdatedTable(rows, rows[i], dto);
    var after := Assign(rows[i], dto);
    forall a, b | 0 <= a < b < |r| && r[a].isPrimary && r[b].isPrimary &&
                  AtMostOnePrimary(rows) && (after.productId == rows[i].productId || !after.isPrimary)
      ensures r[a].productId != r[b].productId
    {
      assert rows[a].id != rows[b].id;
      if a == i || b == i {
        var other := if a == i then b else a;
        assert rows[other].id != rows[i].id;
        assert r[other] == rows[other];
      } else {
        assert rows[a].id != rows[i].id && rows[b].id != rows[i].id;
        assert r[a] == rows[a] && r[b] == rows[b];
      }
    }
  }

  /** What `update` does to the table: the image takes the body's fields; with
      `isPrimary: true` every other image of its current product stops being
      primary; every other row is left exactly as it was. */
  lemma UpdatedTableEffect(rows: seq<ProductImage>, next: int, i: nat, dto: UpdateProductImagesDto)
    requires Keyed(rows, ImageId, next) && i < |rows|
    ensures var r := UpdatedTable(rows, rows[i], dto);
      && r[i] == Assign(rows[i], dto)
      && (forall k :: 0 <= k < |rows| && k != i ==> r[k].id == rows[k].id && r[k].productId == rows[k].productId)
      && (dto.isPrimary == Some(true) ==>
            forall k :: 0 <= k < |rows| && k != i && rows[k].productId == rows[i].productId ==> !r[k].isPrimary)
      && (forall k :: 0 <= k < |rows| && k != i && (dto.isPrimary != Some(true) || rows[k].productId != rows[i].productId) ==>
            r[k] == rows[k])
  {
  }

  /** The table after the first write of `update`: with `isPrimary: true`, the
      bulk clear of the flag on the other images of `target`'s product. */
  function ClearedSiblings(rows: seq<ProductImage>, target: ProductImage, dto: UpdateProductImagesDto): (r: seq<ProductImage>)
    ensures |r| == |rows|
    ensures forall k :: 0 <= k < |rows| && rows[k].id == target.id ==> r[k] == rows[k]
    ensures dto.isPrimary != Some(true) ==> r == rows
  {
    if dto.isPrimary == Some(true) then ClearPrimary(rows, OtherImagesOf(target.productId, target.id)) else rows
  }

  /** The steps of `update` build `UpdatedTable`: the optional bulk clear of the
      product's other images, then the save of the assigned image in place. */
  lemma UpdateSteps(rows: seq<ProductImage>, next: int, i: nat, dto: UpdateProductImagesDto)
    requires Keyed(rows, ImageId, next) && i < |rows|
    ensures ClearedSiblings(rows, rows[i], dto)[i := Assign(rows[i], dto)] == UpdatedTable(rows, rows[i], dto)
  {
  }

  /** The caveat of `update`: moving an image to another product while making it
      primary leaves the other product with two primary images, because only the
      old product's images are cleared. */
  lemma MovingPrimaryImageCanDuplicate()
    ensures var rows := [ProductImage(1, 1, "a", true, "a"), ProductImage(2, 2, "b", false, "b")];
      && Keyed(rows, ImageId, 3) && AtMostOnePrimary(rows)
      && !AtMostOnePrimary(UpdatedTable(rows, rows[1], UpdateProductImagesDto(Some(1), Some(true), None)))
  {
    var rows := [ProductImage(1, 1, "a", true, "a"), ProductImage(2, 2, "b", false, "b")];
    var r := UpdatedTable(rows, rows[1], UpdateProductImagesDto(Some(1), Some(true), None));
    assert r[0].isPrimary && r[1].isPrimary && r[0].productId == r[1].productId;
  }

  /** The product lookup as the source writes it: a call to `getOne`, which the
      product service does not declare, so the call throws a TypeError whatever
      the id. */
  function ProductLookupAsWritten(products: Products.ProductsService, productId: int): (r: Result<Products.Product>)
    ensures r.Err?
  {
    Err(Internal)
  }

  /** As written, the lookup rejects even a stored product, so `create` and
      `getByProductId` can never succeed; `findOne` finds it. */
  lemma AsWrittenLookupRejectsStoredProduct(products: Products.ProductsService, p: Products.Product)
    requires p in products.productRepository
    ensures ProductLookupAsWritten(products, p.id).Err?
    ensures products.FindOne(p.id).Ok?
  {
  }

  class ProductImagesService {
    const productsService: Products.ProductsService
    var productImagesRepository: seq<ProductImage>
    var nextId: int

    ghost predicate Valid()
      reads this
    {
      Keyed(productImagesRepository, ImageId, nextId)
    }

    /** No product has two primary images. */
    ghost predicate OnePrimary()
      reads this
    {
      AtMostOnePrimary(productImagesRepository)
    }

    constructor (productsService: Products.ProductsService)
      ensures this.productsService == productsService
      ensures Valid() && OnePrimary() && productImagesRepository == [] && nextId == 1
    {
      this.productsService := productsService;
      productImagesRepository := [];
      nextId := 1;
    }

    /** `create`: NotFound when the product is missing; otherwise, when the body
        asks for a primary image, the product's stored images lose the flag, and
        one image per file is saved, in file order. */
    method Create(dto: CreateProductImagesDto, images: seq<string>) returns (r: Result<seq<ProductImage>>)
      requires Valid()
      modifies this
      ensures Valid()
      ensures r.Err? <==> productsService.FindOne(dto.productId).Err?
      ensures r.Err? ==> r.error == NotFound && productImagesRepository == old(productImagesRepository) && nextId == old(nextId)
      ensures r.Ok? ==> r.value == NewImages(old(nextId), dto, productsService.FindOne(dto.productId).value.name, images)
      ensures r.Ok? ==>
        var kept := if dto.isPrimary then ClearPrimary(old(productImagesRepository), OfProduct(dto.productId))
                    else old(productImagesRepository);
        productImagesRepository == kept + r.value && nextId == old(nextId) + |images|
      ensures old(OnePrimary()) ==> OnePrimary()
    {
      var product := productsService.FindOne(dto.productId);
      if product.Err? {
        return Err(product.error);
      }
      ClearPrimaryKeeps(productImagesRepository, OfProduct(dto.productId), nextId);
      if dto.isPrimary {
        productImagesRepository := ClearPrimary(productImagesRepository, OfProduct(dto.productId));
      }
      var productImages := SaveImages(dto, product.value.name, images);
      return Ok(productImages);
    }

    /** The loop of `create`: saves one image per file, in file order, each under
        the next generated id; only the first may be primary, so the one-primary
        rule survives when the product has no primary image left. */
    method SaveImages(dto: CreateProductImagesDto, productName: string, images: seq<string>) returns (productImages: seq<ProductImage>)
      requires Valid()
      requires dto.isPrimary ==>
        forall k :: 0 <= k < |productImagesRepository| && productImagesRepository[k].isPrimary ==>
          productImagesRepository[k].productId != dto.productId
      modifies this
      ensures Valid()
      ensures productImages == NewImages(old(nextId), dto, productName, images)
      ensures productImagesRepository == old(productImagesRepository) + productImages
      ensures nextId == old(nextId) + |images|
      ensures old(OnePrimary()) ==> OnePrimary()
    {
      productImages := [];
      var index := 0;
      while index < |images|
        invariant 0 <= index <= |images|
        invariant nextId == old(nextId) + index
        invariant productImages == NewImages(old(nextId), dto, productName, images[..index])
        invariant productImagesRepository == old(productImagesRepository) + productImages
        invariant Valid()
        invariant old(OnePrimary()) ==> OnePrimary()
      {
        var productImage := NewImage(nextId, dto, productName, images[index], index);
        NewImagesSnoc(old(nextId), dto, productName, images, index);
        if productImage.isPrimary {
          assert productImagesRepository == old(productImagesRepository);
        }
        AppendKeepsAtMostOnePrimary(productImagesRepository, productImage);
        KeyedAppend(productImagesRepository, ImageId, nextId, productImage);
        productImagesRepository := productImagesRepository + [productImage];
        nextId := nextId + 1;
        productImages := productImages + [productImage];
        index := index + 1;
      }
      assert images[..index] == images;
    }

    /** `getAll`: the rows matching the given criteria, oldest first, one page of
        them: `CurrentLimit(limit)` rows after skipping the earlier pages. */
    function GetAll(page: Option<int>, limit: Option<int>, productId: Option<int>, isPrimary: Option<bool>): (r: seq<ProductImage>)
      reads this
      ensures forall k :: 0 <= k < |r| ==> Matches(productId, isPrimary)(r[k])
      ensures CurrentLimit(limit) > 0 ==> |r| <= CurrentLimit(limit)
      ensures var matching := Filter(productImagesRepository, Matches(productId, isPrimary));
        var skip := SkipFor(CurrentPage(page), CurrentLimit(limit));
        && (skip >= 0 ==> forall i :: 0 <= i < |r| ==> skip + i < |matching| && r[i] == matching[skip + i])
        && (skip >= 0 && CurrentLimit(limit) > 0 ==> |r| == WindowLength(|matching|, skip, CurrentLimit(limit)))
    {
      var matching := Filter(productImagesRepository, Matches(productId, isPrimary));
      Window(matching, SkipFor(CurrentPage(page), CurrentLimit(limit)), CurrentLimit(limit))
    }

    /** Without paging parameters `getAll` answers the first ten matching rows. */
    lemma GetAllDefaults(productId: Option<int>, isPrimary: Option<bool>)
      ensures var matching := Filter(productImagesRepository, Matches(productId, isPrimary));
        GetAll(None, None, productId, isPrimary) == matching[..if |matching| < 10 then |matching| else 10]
    {
    }

    /** Pages `page` and `page + 1` are adjacent: together they are the window of
        `2 * limit` matching rows that starts at page `page`. */
    lemma GetAllNextPage(page: int, limit: int, productId: Option<int>, isPrimary: Option<bool>)
      requires page >= 1 && limit >= 1
      ensures var matching := Filter(productImagesRepository, Matches(productId, isPrimary));
        GetAll(Some(page), Some(limit), productId, isPrimary) + GetAll(Some(page + 1), Some(limit), productId, isPrimary)
        == Window(matching, SkipFor(page, limit), 2 * limit)
    {
      assert CurrentPage(Some(page)) == page && CurrentPage(Some(page + 1)) == page + 1;
      assert CurrentLimit(Some(limit)) == limit;
      ConsecutivePages(Filter(productImagesRepository, Matches(productId, isPrimary)), page, limit);
    }

    /** `getOne`: the image with this id, or NotFound. */
    function GetOne(id: int): (r: Result<ProductImage>)
      reads this
      ensures r.Ok? ==> r.value in productImagesRepository && r.value.id == id
      ensures r.Err? <==> forall k :: 0 <= k < |productImagesRepository| ==> productImagesRepository[k].id != id
      ensures r.Err? ==> r.error == NotFound
    {
      match Find(productImagesRepository, IdIs(id))
      case None => Err(NotFound)
      case Some(img) => Ok(img)
    }

    /** `getByProductId`: NotFound when the product is missing, otherwise exactly
        the product's images, each once, oldest first (ids are generated in
        increasing order, so increasing ids are increasing `createdAt`). */
    function GetByProductId(productId: int): (r: Result<seq<ProductImage>>)
      reads this, productsService
      ensures r.Err? <==> productsService.FindOne(productId).Err?
      ensures r.Err? ==> r.error == NotFound
      ensures r.Ok? ==>
        && (forall k :: 0 <= k < |r.value| ==> r.value[k] in productImagesRepository && r.value[k].productId == productId)
        && (forall k :: 0 <= k < |productImagesRepository| && productImagesRepository[k].productId == productId ==>
              productImagesRepository[k] in r.value)
      ensures r.Ok? && Valid() ==> forall a, b :: 0 <= a < b < |r.value| ==> r.value[a].id < r.value[b].id
    {
      match productsService.FindOne(productId)
      case Err(e) => Err(e)
      case Ok(_) =>
        var images := Filter(productImagesRepository, OfProduct(productId));
        assert Valid() ==> Keyed(images, ImageId, nextId) by {
          if Valid() {
            FilterKeyed(productImagesRepository, ImageId, nextId, OfProduct(productId));
          }
        }
        Ok(images)
    }

    /** The save of an updated image breaks the `product_id` foreign key: the body
        moves the image to a product that is not stored. An unchanged `productId`
        is not written by the save, so it is not checked again. */
    predicate MovesToMissingProduct(img: ProductImage, dto: UpdateProductImagesDto)
      reads productsService
      ensures MovesToMissingProduct(img, dto) ==>
        && dto.productId.Some? && dto.productId.value != img.productId
        && productsService.FindOne(dto.productId.value).Err?
    {
      Assign(img, dto).productId != img.productId && productsService.FindOne(Assign(img, dto).productId).Err?
    }

    /** `update`: NotFound for a missing image. Otherwise the bulk clear of the
        siblings' flag is written first; the save of the assigned image then fails
        on the foreign key when it moves to a missing product, leaving the clear in
        place. On success the table becomes `UpdatedTable` of the stored image,
        which keeps the one-primary rule as long as a primary image does not
        change product. */
    method Update(id: int, dto: UpdateProductImagesDto) returns (r: Result<ProductImage>)
      requires Valid()
      modifies this
      ensures Valid() && nextId == old(nextId)
      ensures r.Err? ==> r == Err(NotFound) || r == Err(Internal)
      ensures r == Err(NotFound) <==> old(GetOne(id)).Err?
      ensures r == Err(NotFound) ==> productImagesRepository == old(productImagesRepository)
      ensures r == Err(Internal) <==> old(GetOne(id)).Ok? && MovesToMissingProduct(old(GetOne(id)).value, dto)
      ensures r == Err(Internal) ==>
        productImagesRepository == ClearedSiblings(old(productImagesRepository), old(GetOne(id)).value, dto)
      ensures r == Err(Internal) && old(OnePrimary()) ==> OnePrimary()
      ensures r.Ok? ==> r.value == Assign(old(GetOne(id)).value, dto)
      ensures r.Ok? ==> productImagesRepository == UpdatedTable(old(productImagesRepository), old(GetOne(id)).value, dto)
      ensures r.Ok? && old(OnePrimary()) && (r.value.productId == old(GetOne(id)).value.productId || !r.value.isPrimary) ==>
        OnePrimary()
    {
      var index := FindIndex(productImagesRepository, IdIs(id));
      if index.None? {
        return Err(NotFound);
      }
      var i := index.value;
      var existingImage := productImagesRepository[i];
      KeyedReplace(productImagesRepository, ImageId, nextId, i, existingImage);
      assert GetOne(id) == Ok(existingImage);
      ghost var before := productImagesRepository;
      UpdateKeepsAtMostOnePrimary(before, nextId, i, dto);
      UpdateSteps(before, nextId, i, dto);
      ClearPrimaryKeeps(before, OtherImagesOf(before[i].productId, id), nextId);
      productImagesRepository := ClearedSiblings(productImagesRepository, existingImage, dto);
      if MovesToMissingProduct(existingImage, dto) {
        return Err(Internal);
      }
      existingImage := Assign(existingImage, dto);
      KeyedReplace(productImagesRepository, ImageId, nextId, i, existingImage);
      productImagesRepository := productImagesRepository[i := existingImage];
      return Ok(existingImage);
    }

    /** `remove`: NotFound, or exactly the image with this id leaves the table and
        is handed back with a message naming the id. */
    method Remove(id: int) returns (r: Result<RemovedImage>)
      requires Valid()
      modifies this
      ensures Valid() && nextId == old(nextId)
      ensures r.Err? <==> old(GetOne(id)).Err?
      ensures r.Err? ==> r.error == NotFound && productImagesRepository == old(productImagesRepository)
      ensures r.Ok? ==>
        && id > 0
        && r.value.deletedImage == old(GetOne(id)).value
        && r.value.message == "the image with th id " + NatToString(id) + " has been deleted successfully"
      ensures r.Ok? ==> productImagesRepository == Filter(old(productImagesRepository), IdIsNot(id))
      ensures old(OnePrimary()) ==> OnePrimary()
    {
      var imageToRemove := GetOne(id);
      if imageToRemove.Err? {
        return Err(imageToRemove.error);
      }
      FilterKeyed(productImagesRepository, ImageId, nextId, IdIsNot(id));
      if OnePrimary() {
        FilterKeepsAtMostOnePrimary(productImagesRepository, IdIsNot(id));
      }
      productImagesRepository := Filter(productImagesRepository, IdIsNot(id));
      var message := "the image with th id " + NatToString(id) + " has been deleted successfully";
      return Ok(RemovedImage(message, imageToRemove.value));
    }

    /** `removeByProductId`: exactly the images of this product leave the table;
        every other image stays, in order. */
    method RemoveByProductId(productId: int)
      requires Valid()
      modifies this
      ensures Valid() && nextId == old(nextId)
      ensures productImagesRepository == Filter(old(productImagesRepository), NotOfProduct(productId))
      ensures old(OnePrimary()) ==> OnePrimary()
    {
      var images := Filter(productImagesRepository, OfProduct(productId));
      if |images| > 0 {
        FilterKeyed(productImagesRepository, ImageId, nextId, NotOfProduct(productId));
        if OnePrimary() {
          FilterKeepsAtMostOnePrimary(productImagesRepository, NotOfProduct(productId));
        }
        productImagesRepository := Filter(productImagesRepository, NotOfProduct(productId));
      } else {
        FilterKeepsAll(productImagesRepository, NotOfProduct(productId));
      }
    }
  }
}

=== FILE: products.dfy ===
/** The product service: uniquely named products, each optionally linked to a
    category of the category table. */
module Products {
  import opened Common
  import opened Repository
  import Categories

  /** A row of the `products` table. `categoryId` is the link to a category (absent
      for none); `price` is the decimal column as a whole number. */
  datatype Product = Product(id: int, name: string, desc: Option<string>, price: int, stock: int, categoryId: Option<int>)

  datatype CreateProductDto = CreateProductDto(name: string, desc: Option<string>, price: int, stock: int, categoryId: Option<int>)

  /** What an update body says about the category link: nothing (undefined),
      `null`, or a category id. */
  datatype CategoryPatch = Keep | Detach | Link(id: int)

  datatype UpdateProductDto = UpdateProductDto(
    name: Option<string>, desc: Option<string>, price: Option<int>, stock: Option<int>, categoryId: CategoryPatch)

  function ProductId(p: Product): int {
    p.id
  }

  function ProductName(p: Product): string {
    p.name
  }

  function IdIs(id: int): Product -> bool {
    (p: Product) => p.id == id
  }

  function IdIsNot(id: int): Product -> bool {
    (p: Product) => p.id != id
  }

  function NameIs(name: string): Product -> bool {
    (p: Product) => p.name == name
  }

  /** The product after a successful update: a truthy, different name replaces
      the old one; desc, price and stock change only when defined; the category
      link is kept, cleared by `null`, or moved to the given category. */
  function Patch(p: Product, dto: UpdateProductDto): (r: Product)
    ensures r.id == p.id
    ensures Renames(p.name, dto.name) ==> r.name == dto.name.value
    ensures !Renames(p.name, dto.name) ==> r.name == p.name
    ensures dto.desc.Some? ==> r.desc == dto.desc
    ensures dto.desc.None? ==> r.desc == p.desc
    ensures dto.price.Some? ==> r.price == dto.price.value
    ensures dto.price.None? ==> r.price == p.price
    ensures dto.stock.Some? ==> r.stock == dto.stock.value
    ensures dto.stock.None? ==> r.stock == p.stock
    ensures dto.categoryId == Keep ==> r.categoryId == p.categoryId
    ensures dto.categoryId == Detach ==> r.categoryId == None
    ensures dto.categoryId.Link? ==> r.categoryId == Some(dto.categoryId.id)
  {
    Product(
      p.id,
      if Renames(p.name, dto.name) then dto.name.value else p.name,
      if dto.desc.Some? then dto.desc else p.desc,
      if dto.price.Some? then dto.price.value else p.price,
      if dto.stock.Some? then dto.stock.value else p.stock,
      match dto.categoryId
      case Keep => p.categoryId
      case Detach => None
      case Link(c) => Some(c))
  }

  /** The row `save` stores for an update as the source is written. Detaching
      assigns `undefined` to the `category` relation, and the ORM's change
      detection skips relations whose value is `undefined`, so the stored link
      survives; every other field is written as `Patch` says. */
  function PatchAsSaved(p: Product, dto: UpdateProductDto): (r: Product)
    ensures dto.categoryId == Detach ==> r.categoryId == p.categoryId
    ensures dto.categoryId == Detach ==> r == Patch(p, dto).(categoryId := p.categoryId)
    ensures dto.categoryId != Detach ==> r == Patch(p, dto)
  {
    var patched := Patch(p, dto);
    if dto.categoryId == Detach then patched.(categoryId := p.categoryId) else patched
  }

  /** As written, `categoryId: null` leaves a linked product linked in the table,
      where the intended update clears the link. */
  lemma DetachAsWrittenKeepsLink(p: Product, c: int)
    requires p.categoryId == Some(c)
    ensures var dto := UpdateProductDto(None, None, None, None, Detach);
      && PatchAsSaved(p, dto).categoryId == Some(c)
      && Patch(p, dto).categoryId == None
  {
  }

  /** An update body with every field left out. */
  const EmptyUpdate := UpdateProductDto(None, None, None, None, Keep)

  /** PATCH semantics: the id survives, an empty body changes nothing, and
      sending the same body twice is the same as sending it once. */
  lemma PatchIsPartialUpdate(p: Product, dto: UpdateProductDto)
    ensures Patch(p, dto).id == p.id
    ensures Patch(p, EmptyUpdate) == p
    ensures Patch(Patch(p, dto), dto) == Patch(p, dto)
  {
  }

  class ProductsService {
    const categories: Categories.CategoriesService
    var productRepository: seq<Product>
    var nextId: int

    ghost predicate Valid()
      reads this
    {
      Keyed(productRepository, ProductId, nextId)
    }

    /** Product names are pairwise distinct. */
    ghost predicate NamesDistinct()
      reads this
    {
      Distinct(productRepository, ProductName)
    }

    constructor (categories: Categories.CategoriesService)
      ensures this.categories == categories
      ensures Valid() && NamesDistinct() && productRepository == [] && nextId == 1
    {
      this.categories := categories;
      productRepository := [];
      nextId := 1;
    }

    /** The first product with exactly this name, if any. */
    function FindByName(name: string): (r: Option<Product>)
      reads this
      ensures r.Some? ==> r.value in productRepository && r.value.name == name
      ensures r.None? <==> forall k :: 0 <= k < |productRepository| ==> productRepository[k].name != name
    {
      Find(productRepository, NameIs(name))
    }

    /** `findOne`: the product with this id, or NotFound. */
    function FindOne(id: int): (r: Result<Product>)
      reads this
      ensures r.Ok? ==> r.value in productRepository && r.value.id == id
      ensures r.Err? <==> forall k :: 0 <= k < |productRepository| ==> productRepository[k].id != id
      ensures r.Err? ==> r.error == NotFound
    {
      match Find(productRepository, IdIs(id))
      case None => Err(NotFound)
      case Some(p) => Ok(p)
    }

    /** `findAll`: newest first, `offset` rows skipped (default 0), at most `limit`
        rows (default 10), together with the number of all products. */
    function FindAll(offset: Option<int>, limit: Option<int>): (r: Page<Product>)
      reads this
      ensures r.count == |productRepository|
      ensures limit.GetOr(10) > 0 ==> |r.data| <= limit.GetOr(10)
      ensures offset.GetOr(0) >= 0 && limit.GetOr(10) >= 0 ==>
        |r.data| == WindowLength(|productRepository|, offset.GetOr(0), limit.GetOr(10))
      ensures offset.GetOr(0) >= 0 ==>
        forall i :: 0 <= i < |r.data| ==>
          && offset.GetOr(0) + i < |productRepository|
          && r.data[i] == productRepository[|productRepository| - 1 - (offset.GetOr(0) + i)]
    {
      Page(Window(NewestFirst(productRepository), offset.GetOr(0), limit.GetOr(10)), |productRepository|)
    }

    /** `create`: a taken name is a Conflict; then a given category id must name a
        stored category (NotFound otherwise); only then is the product stored. */
    method Create(dto: CreateProductDto) returns (r: Result<Product>)
      requires Valid()
      modifies this
      ensures Valid()
      ensures r == Err(Conflict) <==> old(FindByName(dto.name)).Some?
      ensures r == Err(NotFound) <==>
        old(FindByName(dto.name)).None? && dto.categoryId.Some? && categories.FindOne(dto.categoryId.value).Err?
      ensures r.Ok? <==>
        old(FindByName(dto.name)).None? && (dto.categoryId.None? || categories.FindOne(dto.categoryId.value).Ok?)
      ensures r.Err? ==> productRepository == old(productRepository) && nextId == old(nextId)
      ensures r.Ok? ==> r.value == Product(old(nextId), dto.name, dto.desc, dto.price, dto.stock, dto.categoryId)
      ensures r.Ok? ==> productRepository == old(productRepository) + [r.value] && nextId == old(nextId) + 1
      ensures old(NamesDistinct()) ==> NamesDistinct()
    {
      var existingProduct := FindByName(dto.name);
      if existingProduct.Some? {
        return Err(Conflict);
      }
      if dto.categoryId.Some? {
        var category := categories.FindOne(dto.categoryId.value);
        if category.Err? {
          return Err(category.error);
        }
      }
      var product := Product(nextId, dto.name, dto.desc, dto.price, dto.stock, dto.categoryId);
      KeyedAppend(productRepository, ProductId, nextId, product);
      if NamesDistinct() {
        DistinctAppend(productRepository, ProductName, product);
      }
      productRepository := productRepository + [product];
      nextId := nextId + 1;
      return Ok(product);
    }

    /** `update`: NotFound for a missing product, Conflict for a rename onto a
        taken name, NotFound for a link to a missing category; the row is saved
        only after every check has passed. */
    method Update(id: int, dto: UpdateProductDto) returns (r: Result<Product>)
      requires Valid()
      modifies this
      ensures Valid() && nextId == old(nextId)
      ensures r.Err? ==> productRepository == old(productRepository)
      ensures r == Err(Conflict) <==>
        old(FindOne(id)).Ok? && Renames(old(FindOne(id)).value.name, dto.name) && old(FindByName(dto.name.value)).Some?
      ensures r == Err(NotFound) <==>
        || old(FindOne(id)).Err?
        || (&& !(Renames(old(FindOne(id)).value.name, dto.name) && old(FindByName(dto.name.value)).Some?)
            && dto.categoryId.Link? && categories.FindOne(dto.categoryId.id).Err?)
      ensures r.Ok? <==>
        && old(FindOne(id)).Ok?
        && !(Renames(old(FindOne(id)).value.name, dto.name) && old(FindByName(dto.name.value)).Some?)
        && !(dto.categoryId.Link? && categories.FindOne(dto.categoryId.id).Err?)
      ensures r.Ok? ==> r.value == Patch(old(FindOne(id)).value, dto)
      ensures r.Ok? ==>
        && |productRepository| == |old(productRepository)|
        && forall k :: 0 <= k < |productRepository| ==>
             productRepository[k] == if old(productRepository[k]).id == id then r.value else old(productRepository[k])
      ensures old(NamesDistinct()) ==> NamesDistinct()
    {
      var index := FindIndex(productRepository, IdIs(id));
      if index.None? {
        return Err(NotFound);
      }
      var i := index.value;
      var product := productRepository[i];
      KeyedReplace(productRepository, ProductId, nextId, i, product);
      assert FindOne(id) == Ok(product);
      if Renames(product.name, dto.name) {
        var existingProduct := FindByName(dto.name.value);
        if existingProduct.Some? {
          return Err(Conflict);
        }
      }
      if dto.categoryId.Link? {
        var category := categories.FindOne(dto.categoryId.id);
        if category.Err? {
          return Err(category.error);
        }
      }
      product := Patch(product, dto);
      assert product.name == productRepository[i].name || FindByName(product.name).None?;
      KeyedReplace(productRepository, ProductId, nextId, i, product);
      DistinctReplace(productRepository, ProductName, i, product);
      productRepository := productRepository[i := product];
      return Ok(product);
    }

    /** `remove`: NotFound, or exactly the row with this id leaves the table. */
    method Remove(id: int) returns (r: Result<string>)
      requires Valid()
      modifies this
      ensures Valid() && nextId == old(nextId)
      ensures r.Err? <==> old(FindOne(id)).Err?
      ensures r.Err? ==> r.error == NotFound && productRepository == old(productRepository)
      ensures r.Ok? ==> r.value == "Product deleted successfully"
      ensures r.Ok? ==> productRepository == Filter(old(productRepository), IdIsNot(id))
      ensures old(NamesDistinct()) ==> NamesDistinct()
    {
      var product := FindOne(id);
      if product.Err? {
        return Err(product.error);
      }
      FilterKeyed(productRepository, ProductId, nextId, IdIsNot(id));
      if NamesDistinct() {
        FilterDistinct(productRepository, ProductName, IdIsNot(id));
      }
      productRepository := Filter(productRepository, IdIsNot(id));
      return Ok("Product deleted successfully");
    }
  }
}

=== FILE: repository.dfy ===
/** An ORM repository seen as a sequence of rows in insertion order, which is also
    the order of their generated ids and of their `createdAt` stamps. */
module Repository {
  import opened Common

  /** Index of the first row that satisfies `p`: what `findOne({ where })` finds. */
  function FindIndex<R>(rows: seq<R>, p: R -> bool): (r: Option<nat>)
    ensures r.Some? ==> r.value < |rows| && p(rows[r.value])
    ensures r.Some? ==> forall k :: 0 <= k < r.value ==> !p(rows[k])
    ensures r.None? <==> forall k :: 0 <= k < |rows| ==> !p(rows[k])
  {
    if rows == [] then None
    else if p(rows[0]) then Some(0)
    else match FindIndex(rows[1..], p)
      case None =>
        assert forall k :: 1 <= k < |rows| ==> rows[k] == rows[1..][k - 1];
        None
      case Some(i) => Some(i + 1)
  }

  /** The first row that satisfies `p`, if any. */
  function Find<R>(rows: seq<R>, p: R -> bool): (r: Option<R>)
    ensures r.Some? ==> r.value in rows && p(r.value)
    ensures r.None? <==> forall k :: 0 <= k < |rows| ==> !p(rows[k])
  {
    match FindIndex(rows, p)
    case None => None
    case Some(i) => Some(rows[i])
  }

  /** The rows that satisfy `p`, in their order: what `find({ where })` returns. */
  function Filter<R>(rows: seq<R>, p: R -> bool): (r: seq<R>)
    ensures |r| <= |rows|
    ensures forall k :: 0 <= k < |r| ==> r[k] in rows && p(r[k])
    ensures forall k :: 0 <= k < |rows| && p(rows[k]) ==> rows[k] in r
  {
    if rows == [] then [] else (if p(rows[0]) then [rows[0]] else []) + Filter(rows[1..], p)
  }

  /** Filtering keeps the relative order of the rows. */
  lemma {:induction false} FilterAppend<R>(a: seq<R>, b: seq<R>, p: R -> bool)
    ensures Filter(a + b, p) == Filter(a, p) + Filter(b, p)
  {
    if a != [] {
      assert (a + b)[1..] == a[1..] + b;
      FilterAppend(a[1..], b, p);
    } else {
      assert a + b == b;
    }
  }

  /** Rows whose every member satisfies `p` pass through the filter whole. */
  lemma {:induction false} FilterKeepsAll<R>(rows: seq<R>, p: R -> bool)
    requires forall k :: 0 <= k < |rows| ==> p(rows[k])
    ensures Filter(rows, p) == rows
  {
    if rows != [] {
      FilterKeepsAll(rows[1..], p);
    }
  }

  /** Primary-key discipline: keys strictly increase along the table (insertion
      order), and every key lies between 1 and the next key to be generated. */
  ghost predicate Keyed<R>(rows: seq<R>, key: R -> int, next: int) {
    && (forall i, j :: 0 <= i < j < |rows| ==> key(rows[i]) < key(rows[j]))
    && (forall i :: 0 <= i < |rows| ==> 0 < key(rows[i]) < next)
    && 0 < next
  }

  /** Deleting rows keeps the key discipline. */
  lemma {:induction false} FilterKeyed<R>(rows: seq<R>, key: R -> int, next: int, p: R -> bool)
    requires Keyed(rows, key, next)
    ensures Keyed(Filter(rows, p), key, next)
  {
    if rows != [] {
      FilterKeyed(rows[1..], key, next, p);
      var tail := Filter(rows[1..], p);
      forall x | x in tail
        ensures key(rows[0]) < key(x)
      {
        var k :| 0 <= k < |rows[1..]| && rows[1..][k] == x;
        assert rows[k + 1] == x;
      }
    }
  }

  /** Inserting a row under the next generated key keeps the key discipline. */
  lemma KeyedAppend<R>(rows: seq<R>, key: R -> int, next: int, x: R)
    requires Keyed(rows, key, next) && key(x) == next
    ensures Keyed(rows + [x], key, next + 1)
  {
  }

  /** In a keyed table the key identifies the row. */
  lemma KeyedUnique<R>(rows: seq<R>, key: R -> int, next: int, i: nat, j: nat)
    requires Keyed(rows, key, next) && i < |rows| && j < |rows|
    requires key(rows[i]) == key(rows[j])
    ensures i == j
  {
  }

  /** Saving a changed row under its own key keeps the key discipline, and no
      other row carries that key. */
  lemma KeyedReplace<R>(rows: seq<R>, key: R -> int, next: int, i: nat, x: R)
    requires Keyed(rows, key, next) && i < |rows| && key(x) == key(rows[i])
    ensures Keyed(rows[i := x], key, next)
    ensures forall k :: 0 <= k < |rows| && k != i ==> key(rows[k]) != key(rows[i])
  {
  }

  /** No two rows share the value of `f` (a unique column). */
  ghost predicate Distinct<R, K>(rows: seq<R>, f: R -> K) {
    forall i, j :: 0 <= i < j < |rows| ==> f(rows[i]) != f(rows[j])
  }

  /** A unique column is being renamed: the requested value is present, truthy
      (an empty string is falsy) and differs from the current one. */
  predicate Renames(current: string, requested: Option<string>)
    ensures Renames(current, requested) ==> requested.Some? && |requested.value| > 0 && requested.value != current
    ensures requested.None? || requested == Some("") || requested == Some(current) ==> !Renames(current, requested)
  {
    requested.Some? && requested.value != "" && requested.value != current
  }

  /** Appending a row whose unique value is new keeps the column unique. */
  lemma DistinctAppend<R, K>(rows: seq<R>, f: R -> K, x: R)
    requires Distinct(rows, f)
    requires forall k :: 0 <= k < |rows| ==> f(rows[k]) != f(x)
    ensures Distinct(rows + [x], f)
  {
  }

  /** Replacing row `i` by a row that keeps its unique value, or whose value no
      row has, keeps the column unique. */
  lemma DistinctReplace<R, K>(rows: seq<R>, f: R -> K, i: nat, x: R)
    requires i < |rows|
    requires f(x) == f(rows[i]) || forall k :: 0 <= k < |rows| ==> f(rows[k]) != f(x)
    ensures Distinct(rows, f) ==> Distinct(rows[i := x], f)
  {
  }

  /** Deleting rows keeps a column unique. */
  lemma {:induction false} FilterDistinct<R, K>(rows: seq<R>, f: R -> K, p: R -> bool)
    requires Distinct(rows, f)
    ensures Distinct(Filter(rows, p), f)
  {
    if rows != [] {
      FilterDistinct(rows[1..], f, p);
      var tail := Filter(rows[1..], p);
      forall k | 0 <= k < |tail|
        ensures f(rows[0]) != f(tail[k])
      {
        var j :| 0 <= j < |rows[1..]| && rows[1..][j] == tail[k];
        assert rows[j + 1] == tail[k];
      }
    }
  }

  /** A listing page with the total row count (`findAndCount`). */
  datatype Page<T> = Page(data: seq<T>, count: nat)

  /** The number of rows a `skip`/`take` window of a table of `n` rows holds:
      none past the end, every row from `skip` on when `take` is 0 (the ORM adds
      no LIMIT for a falsy `take`) or when the table ends first, else `take`. */
  function WindowLength(n: int, skip: int, take: int): int {
    if skip >= n then 0 else if take == 0 || skip + take > n then n - skip else take
  }

  /** `take`/`skip` paging: the rows from row `skip` on, at most `take` of them
      when `take` is positive, all of them when it is 0. A negative skip counts
      as 0 and a negative take as an empty page. */
  function Window<R>(rows: seq<R>, skip: int, take: int): (r: seq<R>)
    ensures |r| <= |rows|
    ensures take > 0 ==> |r| <= take
    ensures 0 <= skip && 0 <= take ==> |r| == WindowLength(|rows|, skip, take)
    ensures skip >= 0 ==> forall i :: 0 <= i < |r| ==> skip + i < |rows| && r[i] == rows[skip + i]
    ensures skip < 0 ==> forall i :: 0 <= i < |r| ==> r[i] == rows[i]
  {
    var from := if skip < 0 then 0 else if skip > |rows| then |rows| else skip;
    var to := if take < 0 then from else if take == 0 || from + take > |rows| then |rows| else from + take;
    rows[from..to]
  }

  /** Consecutive windows tile the table: the page after a window starts where it ends. */
  lemma WindowSplit<R>(rows: seq<R>, skip: nat, a: nat, b: nat)
    requires a > 0 && b > 0
    ensures Window(rows, skip, a) + Window(rows, skip + a, b) == Window(rows, skip, a + b)
  {
    var lo := if skip > |rows| then |rows| else skip;
    var mid := if skip + a > |rows| then |rows| else skip + a;
    var hi := if skip + a + b > |rows| then |rows| else skip + a + b;
    assert Window(rows, skip, a) == rows[lo..mid];
    assert Window(rows, skip + a, b) == rows[mid..hi];
    assert rows[lo..mid] + rows[mid..hi] == rows[lo..hi];
  }

  /** Rows skipped before a numbered page: `(page - 1) * limit`. */
  function SkipFor(page: int, limit: int): (skip: int)
    ensures page >= 1 && limit >= 0 ==> skip >= 0
    ensures page == 1 ==> skip == 0
  {
    (page - 1) * limit
  }

  /** Page `page + 1` starts right where page `page` ends: together the two pages
      are the window of twice the size, so paging neither skips nor repeats rows.
      With a limit of 0 there is no paging at all: every page is the whole table. */
  lemma ConsecutivePages<R>(rows: seq<R>, page: int, limit: nat)
    requires page >= 1
    ensures limit > 0 ==>
      Window(rows, SkipFor(page, limit), limit) + Window(rows, SkipFor(page + 1, limit), limit)
      == Window(rows, SkipFor(page, limit), 2 * limit)
    ensures limit == 0 ==> Window(rows, SkipFor(page, limit), limit) == rows
  {
    var skip := SkipFor(page, limit);
    SkipForNext(page, limit);
    if limit > 0 {
      WindowSplit(rows, skip, limit, limit);
    }
  }

  lemma SkipForNext(page: int, limit: int)
    ensures SkipFor(page + 1, limit) == SkipFor(page, limit) + limit
  {
  }

  /** The rows newest first (`order: { createdAt: 'DESC' }`). */
  function NewestFirst<R>(rows: seq<R>): (r: seq<R>)
    ensures |r| == |rows|
    ensures forall i :: 0 <= i < |rows| ==> r[i] == rows[|rows| - 1 - i]
  {
    if rows == [] then [] else [rows[|rows| - 1]] + NewestFirst(rows[..|rows| - 1])
  }
}

=== FILE: text.dfy ===
/** The two string operations the services use: JavaScript's `String.prototype.trim`
    and the decimal rendering of a number inside a template literal. */
module Text {

  /** JavaScript's WhiteSpace and LineTerminator characters, which `trim` strips. */
  predicate IsSpace(c: char) {
    || c == ' ' || c == '\t' || c == '\n' || c == '\r'
    || c == '\U{000B}' || c == '\U{000C}' || c == '\U{00A0}' || c == '\U{1680}'
    || ('\U{2000}' <= c <= '\U{200A}')
    || c == '\U{2028}' || c == '\U{2029}' || c == '\U{202F}' || c == '\U{205F}'
    || c == '\U{3000}' || c == '\U{FEFF}'
  }

  /** `s` without its leading white space: the longest suffix of `s` that starts
      with a non-space, or the empty string. */
  function TrimStart(s: string): (r: string)
    ensures |r| <= |s| && r == s[|s| - |r|..]
    ensures forall k :: 0 <= k < |s| - |r| ==> IsSpace(s[k])
    ensures r != [] ==> !IsSpace(r[0])
  {
    if s != [] && IsSpace(s[0]) then TrimStart(s[1..]) else s
  }

  /** `s` without its trailing white space. */
  function TrimEnd(s: string): (r: string)
    ensures |r| <= |s| && r == s[..|r|]
    ensures forall k :: |r| <= k < |s| ==> IsSpace(s[k])
    ensures r != [] ==> !IsSpace(r[|r| - 1])
  {
    if s != [] && IsSpace(s[|s| - 1]) then TrimEnd(s[..|s| - 1]) else s
  }

  /** `s.trim()`: a contiguous piece of `s` that neither starts nor ends with white
      space, obtained by dropping only white space at both ends. */
  function Trim(s: string): (r: string)
    ensures |r| <= |s|
    ensures r != [] ==> !IsSpace(r[0]) && !IsSpace(r[|r| - 1])
    ensures var a := |s| - |TrimStart(s)|;
      && a + |r| <= |s| && r == s[a..a + |r|]
      && (forall k :: 0 <= k < a ==> IsSpace(s[k]))
      && (forall k :: a + |r| <= k < |s| ==> IsSpace(s[k]))
  {
    TrimEnd(TrimStart(s))
  }

  /** A string that has no white space at either end is left as it is. */
  lemma TrimmedIsFixed(s: string)
    requires s != [] ==> !IsSpace(s[0]) && !IsSpace(s[|s| - 1])
    ensures Trim(s) == s
  {
    assert TrimStart(s) == s;
  }

  /** Trimming twice is trimming once. */
  lemma TrimIdempotent(s: string)
    ensures Trim(Trim(s)) == Trim(s)
  {
    TrimmedIsFixed(Trim(s));
  }

  predicate IsDigit(c: char) {
    '0' as int <= c as int <= '9' as int
  }

  function DigitChar(d: nat): (c: char)
    requires d < 10
    ensures IsDigit(c) && c as int - '0' as int == d
  {
    (('0' as int) + d) as char
  }

  /** The decimal numeral of `n`, as `${n}` renders a non-negative integer. */
  function NatToString(n: nat): (r: string)
    ensures |r| >= 1
    ensures forall k :: 0 <= k < |r| ==> IsDigit(r[k])
    ensures r[0] == '0' ==> n == 0 && |r| == 1
  {
    if n < 10 then [DigitChar(n)] else NatToString(n / 10) + [DigitChar(n % 10)]
  }

  /** The value of a string of decimal digits. */
  function DecimalValue(s: string): nat
    requires forall k :: 0 <= k < |s| ==> IsDigit(s[k])
  {
    if s == [] then 0
    else
      assert IsDigit(s[|s| - 1]);
      DecimalValue(s[..|s| - 1]) * 10 + (s[|s| - 1] as int - '0' as int)
  }

  /** Reading back the numeral gives the number: the rendering loses nothing. */
  lemma {:induction false} NatToStringRoundTrip(n: nat)
    ensures DecimalValue(NatToString(n)) == n
  {
    if n >= 10 {
      NatToStringRoundTrip(n / 10);
      var s := NatToString(n);
      assert s[..|s| - 1] == NatToString(n / 10);
    }
  }

  /** Different numbers render differently. */
  lemma NatToStringInjective(m: nat, n: nat)
    requires NatToString(m) == NatToString(n)
    ensures m == n
  {
    NatToStringRoundTrip(m);
    NatToStringRoundTrip(n);
  }
}

=== FILE: users.dfy ===
/** The user service: role and ownership rules, the role-gated probe routes, the
    role-dependent profile, and the user table with its create/read/update/remove
    operations. */
module Users {
  import opened Common
  import opened Text
  import opened Repository

  datatype UserRole = Customer | Admin | SuperAdmin

  /** A row of the `users` table; `password` holds whatever the service stored
      (normally a bcrypt hash). */
  datatype User = User(id: int, email: string, name: string, password: string, role: UserRole)

  datatype CreateUserDto = CreateUserDto(name: string, email: string, password: string, role: Option<UserRole>)

  /** Every field may be left out of an update. */
  datatype UpdateUserDto = UpdateUserDto(name: Option<string>, email: Option<string>, password: Option<string>, role: Option<UserRole>)

  datatype QueryUserDto = QueryUserDto(page: Option<int>, limit: Option<int>)

  function UserId(u: User): int {
    u.id
  }

  function IdIs(id: int): User -> bool {
    (u: User) => u.id == id
  }

  function IdIsNot(id: int): User -> bool {
    (u: User) => u.id != id
  }

  function EmailIs(email: string): User -> bool {
    (u: User) => u.email == email
  }

  predicate IsElevated(role: UserRole) {
    role == Admin || role == SuperAdmin
  }

  /** A request that sets a role different from the stored one. */
  predicate ChangesRole(stored: UserRole, requested: Option<UserRole>)
    ensures ChangesRole(stored, requested) ==> requested.Some? && requested.value != stored
    ensures requested.None? || requested == Some(stored) ==> !ChangesRole(stored, requested)
  {
    requested.Some? && requested.value != stored
  }

  // ---------------------------------------------------------------------------
  // Authorization rules
  // ---------------------------------------------------------------------------

  /** Succeeds exactly for a present actor whose role is one of `allowedRoles`. */
  function EnsureHasOneOfRole(actor: Option<User>, allowedRoles: seq<UserRole>): (d: Decision)
    ensures d == Allow <==> actor.Some? && actor.value.role in allowedRoles
    ensures actor.None? ==> d == Deny(Unauthenticated)
    ensures actor.Some? && actor.value.role !in allowedRoles ==> d == Deny(InsufficientRole)
  {
    if actor.None? then Deny(Unauthenticated)
    else if actor.value.role !in allowedRoles then Deny(InsufficientRole)
    else Allow
  }

  /** The role a new account gets: CUSTOMER unless an elevated role is asked for,
      and an elevated role only when the creator is ADMIN or SUPER_ADMIN. */
  function AssignRole(requested: Option<UserRole>, creator: Option<User>): (r: Result<UserRole>)
    ensures r.Ok? <==> requested.None? || requested.value == Customer || (creator.Some? && IsElevated(creator.value.role))
    ensures r.Err? ==> r.error == Forbidden(ElevationDenied)
    ensures r.Ok? && requested.Some? ==> r.value == requested.value
    ensures r.Ok? && requested.None? ==> r.value == Customer
  {
    if requested.Some? && requested.value != Customer then
      if creator.None? || (creator.value.role != Admin && creator.value.role != SuperAdmin) then
        Err(Forbidden(ElevationDenied))
      else
        Ok(requested.value)
    else
      Ok(Customer)
  }

  /** Reading one user: a CUSTOMER may read only their own record. */
  function ReadOneDecision(caller: User, targetId: int): (d: Decision)
    ensures d == Allow <==> caller.role != Customer || caller.id == targetId
    ensures d != Allow ==> d == Deny(SelfAccessOnly)
  {
    if caller.role == Customer && caller.id != targetId then Deny(SelfAccessOnly) else Allow
  }

  /** Updating a user whose stored role is `stored`: a CUSTOMER caller may update
      only themself; a role change needs an ADMIN or SUPER_ADMIN caller, and is
      refused outright when there is no caller. */
  function UpdateDecision(caller: Option<User>, targetId: int, stored: UserRole, requested: Option<UserRole>): (d: Decision)
    ensures d == Deny(SelfAccessOnly) <==> caller.Some? && caller.value.role == Customer && caller.value.id != targetId
    ensures d == Deny(ElevationDenied) <==>
      && !(caller.Some? && caller.value.role == Customer && caller.value.id != targetId)
      && ChangesRole(stored, requested)
      && (caller.None? || !IsElevated(caller.value.role))
    ensures d == Allow <==>
      && !(caller.Some? && caller.value.role == Customer && caller.value.id != targetId)
      && (!ChangesRole(stored, requested) || (caller.Some? && IsElevated(caller.value.role)))
  {
    if caller.Some? then
      if caller.value.role == Customer && caller.value.id != targetId then Deny(SelfAccessOnly)
      else if requested.Some? && requested.value != stored
              && !(caller.value.role == Admin || caller.value.role == SuperAdmin) then Deny(ElevationDenied)
      else Allow
    else if requested.Some? && requested.value != stored then Deny(ElevationDenied)
    else Allow
  }

  /** Removing `target`: a SUPER_ADMIN is protected from everyone but a
      SUPER_ADMIN (checked first); a CUSTOMER may remove only themself. */
  function RemoveDecision(caller: User, target: User): (d: Decision)
    ensures d == Deny(ProtectedRole) <==> target.role == SuperAdmin && caller.role != SuperAdmin
    ensures d == Deny(SelfAccessOnly) <==>
      (target.role != SuperAdmin || caller.role == SuperAdmin) && caller.role == Customer && caller.id != target.id
    ensures d == Allow <==>
      (target.role != SuperAdmin || caller.role == SuperAdmin) && (caller.role != Customer || caller.id == target.id)
  {
    if target.role == SuperAdmin && caller.role != SuperAdmin then Deny(ProtectedRole)
    else if caller.role == Customer && caller.id != target.id then Deny(SelfAccessOnly)
    else Allow
  }

  // ---------------------------------------------------------------------------
  // Role-gated probe routes, profile and optional authentication
  // ---------------------------------------------------------------------------

  /** The bodies the probe routes answer with. */
  datatype ProbeReply =
    | IdAndEmail(message: string, id: int, email: string)
    | EmailOnly(message: string, email: string)
    | IdAndRole(message: string, id: int, role: UserRole)

  function CustomerOnly(user: Option<User>): (r: Result<ProbeReply>)
    ensures r.Ok? <==> user.Some? && user.value.role == Customer
    ensures r.Ok? ==> r.value == IdAndEmail("Customer access granted", user.value.id, user.value.email)
    ensures user.None? ==> r == Err(Forbidden(Unauthenticated))
    ensures user.Some? && user.value.role != Customer ==> r == Err(Forbidden(InsufficientRole))
  {
    match EnsureHasOneOfRole(user, [Customer])
    case Deny(reason) => Err(Forbidden(reason))
    case Allow => Ok(IdAndEmail("Customer access granted", user.value.id, user.value.email))
  }

  /** Note that a SUPER_ADMIN is refused here: the allowed set is ADMIN alone. */
  function AdminOnly(user: Option<User>): (r: Result<ProbeReply>)
    ensures r.Ok? <==> user.Some? && user.value.role == Admin
    ensures r.Ok? ==> r.value == IdAndEmail("Admin access granted", user.value.id, user.value.email)
    ensures user.None? ==> r == Err(Forbidden(Unauthenticated))
    ensures user.Some? && user.value.role != Admin ==> r == Err(Forbidden(InsufficientRole))
  {
    match EnsureHasOneOfRole(user, [Admin])
    case Deny(reason) => Err(Forbidden(reason))
    case Allow => Ok(IdAndEmail("Admin access granted", user.value.id, user.value.email))
  }

  function SuperAdminOnly(user: Option<User>): (r: Result<ProbeReply>)
    ensures r.Ok? <==> user.Some? && user.value.role == SuperAdmin
    ensures r.Ok? ==> r.value == IdAndEmail("Super Admin access granted", user.value.id, user.value.email)
    ensures user.None? ==> r == Err(Forbidden(Unauthenticated))
    ensures user.Some? && user.value.role != SuperAdmin ==> r == Err(Forbidden(InsufficientRole))
  {
    match EnsureHasOneOfRole(user, [SuperAdmin])
    case Deny(reason) => Err(Forbidden(reason))
    case Allow => Ok(IdAndEmail("Super Admin access granted", user.value.id, user.value.email))
  }

  function AdminOrSuperAdmin(user: Option<User>): (r: Result<ProbeReply>)
    ensures r.Ok? <==> user.Some? && IsElevated(user.value.role)
    ensures r.Ok? ==> r.value == IdAndRole("Access granted (Admin or Super Admin)", user.value.id, user.value.role)
    ensures user.None? ==> r == Err(Forbidden(Unauthenticated))
    ensures user.Some? && user.value.role == Customer ==> r == Err(Forbidden(InsufficientRole))
  {
    match EnsureHasOneOfRole(user, [Admin, SuperAdmin])
    case Deny(reason) => Err(Forbidden(reason))
    case Allow => Ok(IdAndRole("Access granted (Admin or Super Admin)", user.value.id, user.value.role))
  }

  /** Any present user passes, whatever the role. */
  function ProtectedRoute(user: Option<User>): (r: Result<ProbeReply>)
    ensures r.Ok? <==> user.Some?
    ensures r.Ok? ==> r.value == EmailOnly("this is protected", user.value.email)
    ensures r.Err? ==> r.error == Forbidden(Unauthenticated)
  {
    if user.None? then Err(Forbidden(Unauthenticated)) else Ok(EmailOnly("this is protected", user.value.email))
  }

  const AdminPermissions: seq<string> := ["manage-users", "view_reports", "moderate_content"]
  const SuperAdminPermissions: seq<string> := ["manage_admins", "system_settings", "access_logs", "all_permissions"]

  /** The profile body; `permission` is absent for a CUSTOMER. */
  datatype Profile = Profile(message: string, id: int, name: string, email: string, role: UserRole, permission: Option<seq<string>>)

  function GetProfile(user: Option<User>): (r: Result<Profile>)
    ensures r.Err? <==> user.None?
    ensures r.Err? ==> r.error == Forbidden(Unauthenticated)
    ensures r.Ok? ==> && r.value.id == user.value.id && r.value.name == user.value.name
                      && r.value.email == user.value.email && r.value.role == user.value.role
    ensures r.Ok? ==> (r.value.permission.None? <==> user.value.role == Customer)
    ensures r.Ok? && user.value.role == Admin ==> r.value.permission == Some(AdminPermissions)
    ensures r.Ok? && user.value.role == SuperAdmin ==> r.value.permission == Some(SuperAdminPermissions)
  {
    match user
    case None => Err(Forbidden(Unauthenticated))
    case Some(u) =>
      match u.role
      case Customer => Ok(Profile("Customer Profile Data", u.id, u.name, u.email, u.role, None))
      case Admin => Ok(Profile("Admin Profile Data", u.id, u.name, u.email, u.role, Some(AdminPermissions)))
      case SuperAdmin => Ok(Profile("Super Admin Profile Data", u.id, u.name, u.email, u.role, Some(SuperAdminPermissions)))
  }

  datatype OptionalAuthReply = OptionalAuthReply(message: string, user: Option<string>)

  /** Never refuses; reports the caller's e-mail, or null when there is no caller
      or the e-mail is empty (the `||` fallback). */
  function OptionalAuth(user: Option<User>): (r: OptionalAuthReply)
    ensures r.message == if user.Some? then "Authenticated user" else "Anonymous user"
    ensures r.user.Some? <==> user.Some? && user.value.email != ""
    ensures r.user.Some? ==> r.user.value == user.value.email
  {
    OptionalAuthReply(
      if user.Some? then "Authenticated user" else "Anonymous user",
      if user.Some? && user.value.email != "" then Some(user.value.email) else None)
  }

  // ---------------------------------------------------------------------------
  // The user table
  // ---------------------------------------------------------------------------

  class UsersService {
    var userRepository: seq<User>
    var nextId: int

    ghost predicate Valid()
      reads this
    {
      Keyed(userRepository, UserId, nextId)
    }

    constructor ()
      ensures Valid() && userRepository == [] && nextId == 1
    {
      userRepository := [];
      nextId := 1;
    }

    /** `findById`: the user with this id, if stored. */
    function FindById(id: int): (r: Option<User>)
      reads this
      ensures r.Some? ==> r.value in userRepository && r.value.id == id
      ensures r.None? <==> forall k :: 0 <= k < |userRepository| ==> userRepository[k].id != id
    {
      Find(userRepository, IdIs(id))
    }

    /** `findByEmail`: the first user stored with exactly this e-mail, if any. */
    function FindByEmail(email: string): (r: Option<User>)
      reads this
      ensures r.Some? ==> r.value in userRepository && r.value.email == email
      ensures r.None? <==> forall k :: 0 <= k < |userRepository| ==> userRepository[k].email != email
    {
      Find(userRepository, EmailIs(email))
    }

    /** Signup and admin-driven creation. The e-mail is looked up untrimmed, then
        the role rule applies, and only then is the trimmed record stored.
        `hashedPassword` stands for bcrypt's hash of `dto.password`. */
    method CreateUser(dto: CreateUserDto, creator: Option<User>, hashedPassword: string) returns (r: Result<User>)
      requires Valid()
      modifies this
      ensures Valid()
      ensures r.Err? ==> userRepository == old(userRepository) && nextId == old(nextId)
      ensures old(FindByEmail(dto.email)).Some? ==> r == Err(Conflict)
      ensures old(FindByEmail(dto.email)).None? && AssignRole(dto.role, creator).Err? ==> r == Err(Forbidden(ElevationDenied))
      ensures r.Ok? <==> old(FindByEmail(dto.email)).None? && AssignRole(dto.role, creator).Ok?
      ensures r.Ok? ==> r.value == User(old(nextId), Trim(dto.email), Trim(dto.name), hashedPassword, AssignRole(dto.role, creator).value)
      ensures r.Ok? ==> userRepository == old(userRepository) + [r.value] && nextId == old(nextId) + 1
    {
      var existingUser := FindByEmail(dto.email);
      if existingUser.Some? {
        return Err(Conflict);
      }
      var assignedRole := AssignRole(dto.role, creator);
      if assignedRole.Err? {
        return Err(assignedRole.error);
      }
      var user := User(nextId, Trim(dto.email), Trim(dto.name), hashedPassword, assignedRole.value);
      KeyedAppend(userRepository, UserId, nextId, user);
      userRepository := userRepository + [user];
      nextId := nextId + 1;
      return Ok(user);
    }

    /** One page of users: `page` defaults to 1 and `limit` to 10 when absent,
        and the page skips `(page - 1) * limit` rows. */
    function GetAllUsers(query: QueryUserDto): (r: seq<User>)
      reads this
      ensures var page, limit := query.page.GetOr(1), query.limit.GetOr(10);
        var skip := SkipFor(page, limit);
        && (limit > 0 ==> |r| <= limit)
        && (page >= 1 && limit >= 0 ==> |r| == WindowLength(|userRepository|, skip, limit))
        && (page >= 1 && limit >= 0 ==>
              forall i :: 0 <= i < |r| ==> skip + i < |userRepository| && r[i] == userRepository[skip + i])
    {
      var page := query.page.GetOr(1);
      var limit := query.limit.GetOr(10);
      Window(userRepository, SkipFor(page, limit), limit)
    }

    /** `GetOneUser`: existence is checked before permission. */
    function GetOneUser(id: int, currentUser: User): (r: Result<User>)
      reads this
      ensures r == Err(NotFound) <==> FindById(id).None?
      ensures r.Ok? ==> r.value in userRepository && r.value.id == id
      ensures FindById(id).Some? && (IsElevated(currentUser.role) || currentUser.id == id) ==> r.Ok?
      ensures FindById(id).Some? && currentUser.role == Customer && currentUser.id != id ==> r == Err(Forbidden(SelfAccessOnly))
    {
      match FindById(id)
      case None => Err(NotFound)
      case Some(user) =>
        match ReadOneDecision(currentUser, id)
        case Allow => Ok(user)
        case Deny(reason) => Err(Forbidden(reason))
    }

    /** `updateUser`: the permission rule reads only the caller, the id and the
        stored role; name and e-mail are trimmed; the stored role is never
        written. `rehashed` stands for bcrypt's hash of the CURRENTLY STORED
        password, which is what the source hashes when a new password is given. */
    method UpdateUser(id: int, dto: UpdateUserDto, currentUser: Option<User>, rehashed: string) returns (r: Result<User>)
      requires Valid()
      modifies this
      ensures Valid() && nextId == old(nextId)
      ensures r.Err? ==> userRepository == old(userRepository)
      ensures r == Err(NotFound) <==> old(FindById(id)).None?
      ensures old(FindById(id)).Some? ==>
        var d := UpdateDecision(currentUser, id, old(FindById(id)).value.role, dto.role);
        && (r.Ok? <==> d == Allow)
        && (d.Deny? ==> r == Err(Forbidden(d.reason)))
      ensures r.Ok? ==>
        var target := old(FindById(id)).value;
        && r.value.id == id && r.value.role == target.role
        && r.value.name == (if dto.name.Some? then Trim(dto.name.value) else target.name)
        && r.value.email == (if dto.email.Some? then Trim(dto.email.value) else target.email)
        && r.value.password == (if dto.password.Some? then rehashed else target.password)
      ensures r.Ok? ==>
        && |userRepository| == |old(userRepository)|
        && forall k :: 0 <= k < |userRepository| ==>
             userRepository[k] == if old(userRepository[k]).id == id then r.value else old(userRepository[k])
    {
      var index := FindIndex(userRepository, IdIs(id));
      if index.None? {
        return Err(NotFound);
      }
      var i := index.value;
      var userToUpdate := userRepository[i];
      KeyedReplace(userRepository, UserId, nextId, i, userToUpdate);
      var decision := UpdateDecision(currentUser, id, userToUpdate.role, dto.role);
      if decision.Deny? {
        return Err(Forbidden(decision.reason));
      }
      userToUpdate := userToUpdate.(
        name := if dto.name.Some? then Trim(dto.name.value) else userToUpdate.name,
        email := if dto.email.Some? then Trim(dto.email.value) else userToUpdate.email,
        password := if dto.password.Some? then rehashed else userToUpdate.password);
      KeyedReplace(userRepository, UserId, nextId, i, userToUpdate);
      userRepository := userRepository[i := userToUpdate];
      return Ok(userToUpdate);
    }

    /** `remove`: not-found first, then the removal rule; on success exactly the
        rows with this id leave the table. */
    method Remove(id: int, currentUser: User) returns (r: Result<()>)
      requires Valid()
      modifies this
      ensures Valid() && nextId == old(nextId)
      ensures r.Err? ==> userRepository == old(userRepository)
      ensures r == Err(NotFound) <==> old(FindById(id)).None?
      ensures old(FindById(id)).Some? ==>
        var d := RemoveDecision(currentUser, old(FindById(id)).value);
        && (r.Ok? <==> d == Allow)
        && (d.Deny? ==> r == Err(Forbidden(d.reason)))
      ensures r.Ok? ==> userRepository == Filter(old(userRepository), IdIsNot(id))
    {
      var userToRemove := FindById(id);
      if userToRemove.None? {
        return Err(NotFound);
      }
      var decision := RemoveDecision(currentUser, userToRemove.value);
      if decision.Deny? {
        return Err(Forbidden(decision.reason));
      }
      FilterKeyed(userRepository, UserId, nextId, IdIsNot(id));
      userRepository := Filter(userRepository, IdIsNot(id));
      return Ok(());
    }

    /** `updatePassword`: stores the given value as it is (no hashing here); a
        missing user raises a plain Error, not a NotFoundException. */
    method UpdatePassword(id: int, password: string) returns (r: Result<User>)
      requires Valid()
      modifies this
      ensures Valid() && nextId == old(nextId)
      ensures r.Err? <==> old(FindById(id)).None?
      ensures r.Err? ==> r.error == Internal && userRepository == old(userRepository)
      ensures r.Ok? ==> r.value == old(FindById(id)).value.(password := password)
      ensures r.Ok? ==>
        && |userRepository| == |old(userRepository)|
        && forall k :: 0 <= k < |userRepository| ==>
             userRepository[k] == if old(userRepository[k]).id == id then r.value else old(userRepository[k])
    {
      var index := FindIndex(userRepository, IdIs(id));
      if index.None? {
        return Err(Internal);
      }
      var i := index.value;
      var user := userRepository[i].(password := password);
      forall k | 0 <= k < |userRepository| && userRepository[k].id == id
        ensures k == i
      {
        KeyedUnique(userRepository, UserId, nextId, k, i);
      }
      userRepository := userRepository[i := user];
      return Ok(user);
    }
  }
}
